=== FILE: README.md ===
# EBCT assistant core, modelled in Dafny

This project models the deterministic core of a small water-treatment
assistant that answers questions about Empty Bed Contact Time (EBCT, the bed
volume divided by the flow rate):

- **Calculator** (`calculator.dfy`): unit normalisation of flow, volume and
  length readings, and `compute_ebct`, which tries the volume/flow formula
  first, then a cylinder built from the first two dimensions and the flow,
  and otherwise lists what is missing. The regular-expression scanner is
  abstracted as the three lists of hits it produces (`Scan`), in text order.
- **Graph store** (`graph.dfy`): a directed graph with attribute maps,
  kept as node insertion order, an attribute map per node, edge insertion
  order and an attribute map per edge. The five guarded mutations of
  `graph_manager.py` return the new graph and the success flag. The two
  seeded graphs share one topology with 5 concepts, 2 risks, 4 pieces of
  advice and 6 typed edges. Their prose is a parameter.
- **Knowledge queries** (`knowledge.dfy`): exact alias lookup, the
  pattern-driven concept lookup (patterns abstracted as a `Matcher`), and
  the risk and advice lookups that follow `has_risk` / `has_advice` edges.
- **Retrieval chain** (`rag.dfy`): alias-substring retrieval of the one-hop
  neighbourhood as an induced subgraph; the size-bounded prompt formatter;
  the three-attempt generation loop over a given model
  (`(prompt, attempt) -> Fail | Reply(text)`); and `execute_rag_chain`.
- **Chat turn** (`app.dfy`): `compute_from_used` and the routing of
  `chat`. The calculator answers first. Otherwise the retrieval chain
  answers, and the caller's `used` quantities are echoed back with their EBCT
  recomputed.
- Support modules: `wrappers.dfy` (`Option`, `Result`), `seqs.dfy`
  (distinctness, filter, take, join) and `text.dfy` (Python's `str.lower`,
  `str.strip` and substring test).

Numbers are `real`, with no rounding. π is the decimal value of `math.pi`, and the
proofs use only that it is positive.

Some behaviour of the code that is easy to miss, and that the model keeps:

- The **first** volume hit is used, like the first flow hit (`calculator.py:73`).
- There is no `cm` length unit. The dimension pattern accepts only `ft`, `m`
  and `in` (`calculator.py:76`), so a `cm` reading is never a dimension hit.
- The unit patterns overlap. A flow in `m3/h` is also a volume hit in `m3`,
  so a message that states only such a flow takes the volume path.
- An unsuccessful result can have an **empty** `need` list. This happens
  exactly when a volume hit and a non-zero flow are present, the volume
  does not normalise to a non-zero number of gallons, and there are fewer
  than two dimension hits. The volume pattern yields only `gal`, `ft3`,
  `ft³`, `m3` and `m³`, so in the source this means a zero volume
  (`Calculator.EmptyNeedExactly`).
- A direct calculation does not replace `used` with the normalised
  quantities. It always hands back `{}` (see Findings).

## Model

| member | source | states |
|---|---|---|
| Calculator.ToGpm | calculator.py:33-43 | a flow converts to gpm exactly when its unit is gpm, l/min, lpm, m3/h or m³/h; zero stays zero and positive stays positive |
| Calculator.GpmRoundTrip | calculator.py:37-42 | each flow conversion is undone by the matching reverse conversion, for every recognised unit |
| Calculator.ToGal | calculator.py:45-55 | a volume converts to gallons exactly when its unit is gal, ft3, ft³, m3 or m³; zero and sign are preserved |
| Calculator.GalRoundTrip | calculator.py:49-54 | each volume conversion is undone by the matching reverse conversion |
| Calculator.ToFeet | calculator.py:57-64 | a unit other than ft, in or m leaves the number unchanged; zero and sign are preserved |
| Calculator.FeetRoundTrip | calculator.py:57-64 | each length conversion is undone by the matching reverse conversion, for every unit |
| Calculator.UnitExamples | calculator.py:39-54 | one cubic metre is 264.172 gallons and one litre per minute is 1/3.78541 gpm |
| Calculator.CylinderScaling | calculator.py:104-105 | the cylinder volume grows with the square of the diameter and linearly with the height |
| Calculator.Ebct | calculator.py:84 | the EBCT of a bed under a non-zero flow, multiplied by the flow, gives back the bed volume; it is non-negative for a non-negative volume and a positive flow |
| Calculator.Missing | calculator.py:119-124 | the flow hint is listed exactly when the flow is absent or zero, the volume hint exactly when there is no volume hit and fewer than two dimension hits, with no repeats and the flow hint first |
| Calculator.ComputeEbct | calculator.py:66-127 | the volume path is taken exactly when a volume hit exists and both flow and volume normalise to non-zero; then the minutes are the EBCT of those gallons at that gpm. The dimension path is taken exactly when that fails, there are two dimension hits and the flow is non-zero; then the minutes are the EBCT of the cylinder's gallons. Otherwise the flow hint is listed exactly when the flow is absent or zero, and the volume hint exactly when there is no volume hit and fewer than two dimension hits, with no repeats and the flow hint first. No result carries `units_normalized` |
| Calculator.OkMinutesNonNegative | calculator.py:78-117 | for unsigned readings every successful result has non-negative minutes |
| Calculator.CylinderNonNegative | calculator.py:104-105 | a cylinder of non-negative diameter and height holds a non-negative number of gallons |
| Calculator.LaterMatchesIgnored | calculator.py:68-76 | only the first flow hit, the first volume hit and the first two dimension hits affect the result |
| Calculator.EmptyNeedExactly | calculator.py:119-127 | an unsuccessful result has an empty hint list exactly when a volume hit and a non-zero flow are present, the volume does not normalise to a non-zero number of gallons (for the units the volume pattern yields, a zero volume) and there are fewer than two dimension hits |
| Calculator.WorkedExample | calculator.py:80-94 | 800 gpm and 9600 gal give 12 minutes by the volume path, with the inputs and formula in the detail |
| GraphStore.AddNode | graph_manager.py:39-45 | fails and changes nothing on an existing id; otherwise adds exactly that node with the given attributes, appended at the end of the node order; no edge changes; the invariant is kept |
| GraphStore.UpdateNode | graph_manager.py:47-54 | fails and changes nothing on a missing id; otherwise overwrites exactly the supplied keys of that node; other keys, other nodes and all edges are unchanged |
| GraphStore.Induced | rag_chain.py:36 | the subgraph keeps the nodes of the kept set with their attributes, and exactly the edges between kept nodes, each in its original relative order; it is valid when the graph is |
| GraphStore.DeleteNode | graph_manager.py:56-62 | fails and changes nothing on a missing id; otherwise removes the node and exactly the edges into or out of it, and the node and edge orders are the old ones with those entries filtered out |
| GraphStore.InducedWithout | graph_manager.py:58-60 | keeping every node but one keeps exactly the edges that do not touch it |
| GraphStore.InducedWithoutOrders | graph_manager.py:58-60 | keeping every node but one filters that node out of the node order and the edges touching it out of the edge order |
| GraphStore.AddEdge | graph_manager.py:64-72 | fails and changes nothing when an endpoint is missing or the ordered pair exists; otherwise adds exactly that edge with its attributes, appended at the end of the edge order |
| GraphStore.DeleteEdge | graph_manager.py:74-80 | fails and changes nothing when the ordered pair is not an edge; otherwise removes exactly that edge, the other edges keeping their order |
| GraphStore.ApplyAll | graph_manager.py:39-80 | any sequence of mutations, successful or not, applied to a valid graph (the seeded ones included) keeps every edge between existing nodes and every ordered pair unique |
| GraphStore.EdgeSeq | rag_chain.py:47-48 | the edge enumeration lists exactly the edges whose source is a node |
| GraphStore.EdgeSeqGrouped | rag_chain.py:47-48 | with distinct nodes, the enumerated edges come grouped by source, the sources following the node order |
| GraphStore.EdgeSeqPerSource | rag_chain.py:47-48 | the edges the enumeration lists for one node are that node's out-edges in insertion order |
| GraphStore.Edges | knowledge_graph.py:148 | the edge enumeration of a valid graph lists every edge and nothing else |
| GraphStore.TypeOf | graph_manager.py:90 | the type is the `type` attribute when that is a string, and empty otherwise; a non-empty type is always such an attribute |
| GraphStore.SeedGraph | graph_manager.py:82-144 | the seeded graph satisfies the invariant: distinct nodes and edges, endpoints present |
| GraphStore.SeedGraphNodeKinds | graph_manager.py:89-132 | the seeded graph has exactly the 5 concept, 2 risk and 4 advice nodes |
| GraphStore.SeedTypes | graph_manager.py:89-132 | each seeded node's `type` is concept, risk or advice according to its id |
| GraphStore.SeedLinkCount | graph_manager.py:134-140 | the seeded graph has 6 edges |
| GraphStore.SeedGraphEdgeKinds | graph_manager.py:134-140 | every seeded edge leads from a concept to a risk (`has_risk`) or to advice (`has_advice`) |
| Knowledge.FindNodeByAlias | knowledge_graph.py:80-85 | returns nothing exactly when no node's alias list holds the lower-cased argument as an element; otherwise returns the first such node in insertion order |
| Knowledge.FirstFiring | knowledge_graph.py:109-120 | the probe chosen fires and no earlier probe fires; nothing is chosen only when no probe fires |
| Knowledge.QueryConcept | knowledge_graph.py:87-122 | nothing is found exactly when no pattern fires on a concept node; otherwise the answer is the description and rationale of the first firing probe's node |
| Knowledge.SupplementaryFirst | knowledge_graph.py:103-120 | when a supplementary pattern fires, the answer comes from a supplementary pattern, before any base pattern |
| Knowledge.FirstTarget | knowledge_graph.py:148-153 | the edge chosen is the first one from the concept, of the given type, to a non-empty node; nothing is chosen exactly when no such edge exists |
| Knowledge.FirstTargetEnumerated | knowledge_graph.py:148-153 | on a valid graph the edge chosen is the first qualifying one of networkx's edge enumeration, and nothing is chosen exactly when that enumeration has none |
| Knowledge.RiskConcept | knowledge_graph.py:130-145 | no risk word gives no concept; V is chosen exactly when a V alias occurs; Q exactly when no V alias but a Q alias occurs; a missing V node, or a missing Q node when no V alias occurs, is the lookup error naming that node; no concept exactly when no risk word or neither alias list occurs |
| Knowledge.QueryRisk | knowledge_graph.py:125-154 | the answer is the description and rationale of the first `has_risk` successor of the chosen concept; when such a successor exists an answer is found; no concept or no such edge gives nothing; the lookup error of the concept choice is passed on unchanged |
| Knowledge.AdviceConcept | knowledge_graph.py:165-173 | volume, flow, diameter and height name V, Q, D and H; every other target names nothing |
| Knowledge.QueryAdvice | knowledge_graph.py:157-182 | an unknown target or no advice edge gives the empty text; otherwise the answer is the lower-cased role's value in the first `has_advice` successor of the target's concept, or the empty text when that node lacks the role |
| Knowledge.KnowledgeGraphShape | knowledge_graph.py:14-75 | the graph built with Korean aliases is valid, with the same 5 concepts, 2 risks, 4 pieces of advice and 6 edges |
| Text.StripLeftCuts | rag_chain.py:85-86 | left stripping keeps a suffix, cuts only white space and leaves no leading white space |
| Text.StripRightCuts | rag_chain.py:85-86 | right stripping keeps a prefix, cuts only white space and leaves no trailing white space |
| Text.StripTrims | rag_chain.py:85-86 | the stripped text is the slice left after cutting white space from both ends, and neither of its ends is white space |
| Text.StripIdempotent | rag_chain.py:85-86 | stripping an accepted reply again changes nothing |
| RagChain.NoneMatched | rag_chain.py:14-23 | with no matched node, no node has an alias occurring in the query |
| RagChain.OneHopOfMatched | rag_chain.py:25-33 | the expanded set is exactly the matched nodes and the nodes one edge away from them, in either direction |
| RagChain.Retrieve | rag_chain.py:5-37 | nothing is retrieved exactly when no alias of any node occurs in the lower-cased query; otherwise the result is non-empty and induced on the matched nodes and their direct successors and predecessors |
| RagChain.RetrieveFinds | rag_chain.py:14-33 | a node whose alias occurs in the query is retrieved together with every node it has an edge to |
| RagChain.FieldLines | rag_chain.py:53-58 | a node shows a line for every non-empty description, rationale, designer or engineer value and no other line, and no more lines than there are fields from position `k`; that each shown field gives exactly one line, in field order, is `RagChain.FieldLinesInOrder` |
| RagChain.FieldLinesInOrder | rag_chain.py:53-58 | the field lines are the lines of the fields with a non-empty value, taken once each in the order description, rationale, designer, engineer (the positions `ShownFields` gives are strictly increasing and are exactly the shown fields) |
| RagChain.EdgesWithin | rag_chain.py:46-48 | the edges considered are exactly the edges with both ends among the shown nodes |
| RagChain.SelectNodes | rag_chain.py:45 | at most `max_nodes` nodes, a prefix of the node order, all of them nodes of the graph |
| RagChain.SelectEdges | rag_chain.py:46-48 | the first `max_edges` edges between the given nodes in enumeration order, or all of them when fewer: each kept edge joins two given nodes and none is skipped or reordered |
| RagChain.Select | rag_chain.py:45-48 | at most `max_nodes` nodes are shown, as a prefix of the node order; the edges shown are the first `max_edges` edges between shown nodes in enumeration order, or all of them when fewer |
| RagChain.Format | rag_chain.py:42-64 | an empty or missing subgraph gives the fixed notice; otherwise the text is at most `max_chars` long and is a prefix of the full rendering |
| RagChain.TryFrom | rag_chain.py:81-92 | the answer is the stripped first usable reply, and every earlier attempt failed or was blank; otherwise all three attempts failed and the apology is returned |
| RagChain.GenerateResponse | rag_chain.py:67-92 | no model gives the fixed notice with no calls; otherwise at most three calls; the answer is the first non-blank reply, stripped, after failed or blank attempts, or the apology after three |
| RagChain.AlwaysFailingModel | rag_chain.py:81-92 | a model that always fails is called three times and yields the apology |
| RagChain.BlankReplyRetried | rag_chain.py:84-87 | a blank reply counts as a failure: a blank first reply and a usable second one give the second, after two calls |
| RagChain.ContextIsNotNoMatch | rag_chain.py:50-64 | a formatted non-empty subgraph opens with the whole header line, so it never equals the no-match rationale |
| RagChain.ExecuteRagChain | rag_chain.py:95-116 | the fixed no-match reply and rationale are returned exactly when no alias of any node occurs in the lower-cased query; otherwise the rationale is the formatted context, at most 4000 characters and opening with the header, and the reply is the generator's text |
| App.ComputeFromUsed | app.py:76-92 | null or empty `used` gives nothing; volume and non-zero flow give the EBCT of that volume at that flow; otherwise diameter, height and non-zero flow give the EBCT of the cylinder; in every other case nothing, and never a division by zero |
| App.VolumeTakesPrecedence | app.py:80-83 | once volume and non-zero flow are known, added dimensions do not change the result |
| App.Route | app.py:113-153 | a successful calculation is reported directly; otherwise the retrieval chain's reply and rationale are returned with the prior `used` echoed and its EBCT recomputed |
| App.Chat | app.py:97-153 | no messages is the error; a successful calculation on the last message gives its minutes, the fixed rationale and an empty `used`; otherwise the caller's `used` (empty when missing) is echoed and its EBCT recomputed |
| App.DirectPathIndependent | app.py:113-135 | a successful calculation answers the same whatever the retrieval chain and the caller's state |
| App.FallbackRecomputesState | app.py:137-153 | on the retrieval path, a prior volume and non-zero flow are echoed and give the EBCT of that volume at that flow |
| App.DirectUsedIsEmpty | app.py:124-135 | as written, a direct answer reports minutes but hands back a `used` from which nothing can be recomputed |
| App.IntendedEbct | app.py:126 | the corrected calculator result equals the original except that a successful one carries the normalised quantities it used: same minutes, same path, every original detail entry unchanged and only `units_normalized` added |
| App.IntendedUsedRecomputes | app.py:76-135 | with the corrected result, recomputing from the `used` handed back gives exactly the minutes reported |
| App.RecomputeAgrees | app.py:76-92 | `compute_from_used` of the quantities a calculation used gives that calculation's minutes, on both formula paths |
| App.RecomputeVolumeFlow | app.py:80-83 | a volume and a non-zero flow recompute to the EBCT of that volume at that flow |
| App.RecomputeDimsFlow | app.py:84-91 | a diameter, a height and a non-zero flow, with no volume, recompute to the EBCT of the cylinder at that flow |

## Left out

- HTTP routes, JSON request parsing and status codes (`app.py`), except the
  decision logic of `chat`. The graph routes only forward to the mutations.
- Persistence: `save_graph`, `load_graph`, `get_graph` and the singleton are
  file I/O. The save after each mutation is treated as having no effect on
  the graph.
- Model initialisation and the model call itself. The model is a given
  function from prompt and attempt number to `Fail` or `Reply(text)`. A
  response without text counts as `Reply("")`.
- The sleep between attempts (wall-clock behaviour).
- Regular-expression internals. The unit scanner is abstracted as `Scan`
  (three hit lists, values unsigned). The concept patterns are abstracted as
  a `Matcher` predicate per pattern.
- `_num` rounding of the reported minutes, floating-point behaviour, and the
  number formatting of the reply sentence (`EbctSentence` carries the number).
- The browser UI scripts.
- networkx internals. A subgraph view may enumerate nodes in the hash order
  of the kept set; the model uses the parent graph's insertion order.
- `Text.Lower` lower-cases ASCII letters only. Other letters are
  left unchanged.
- `RagChain.Render` does not render list items with Python's `repr`. It
  keeps single quotes around every item, where `repr` would switch to
  double quotes for an item containing `'`, and it does not escape
  backslashes or non-printable characters.
- `Knowledge.AliasList` treats an `aliases` value that is not a list as no
  aliases. With a string value, `retrieve` (`rag_chain.py:17`) and
  `query_risk` (`knowledge_graph.py:139`) would iterate its characters.
- `Knowledge.FindNodeByAlias` finds nothing through an `aliases` value that
  is a string. The source would do a substring test on it
  (`knowledge_graph.py:83`).
- Attribute values other than strings and lists of strings, and JSON `null`
  values inside `used`. The model treats a null entry as an absent key.
- Exceptions, except the missing-node lookup error of `query_risk`, which is
  modelled as `Failure`. (`chat` does not call `query_risk`.)
- The prose of the seeded graphs is a parameter. Its exact text is not part
  of this model.
- A retrieval example on the concrete seeded graph. The general lemma
  `RetrieveFinds` covers any matched node and its neighbours instead.

## Findings

| source | as written | input that shows it | evidently intended | confidence | as-written member | corrected member |
|---|---|---|---|---|---|---|
| app.py:126 | `chat` reads `detail.units_normalized`, but `compute_ebct` never sets that key (calculator.py:89-92, calculator.py:112-115). A direct answer therefore always hands back `used = {}`, and later turns recompute nothing | "flow 800 gpm, bed volume 9600 gal": the reply reports 12 minutes, `used` is `{}`, and `compute_from_used({})` is None | a successful result carries the normalised quantities under the keys `compute_from_used` reads, so that recomputing gives the reported minutes | medium, not executed | App.DirectUsedIsEmpty | App.IntendedUsedRecomputes |

=== FILE: app.dfy ===
/** One chat turn: the calculator is tried first and answers directly when
    it succeeds; otherwise the retrieval chain answers and the caller's
    previous quantities are echoed back with their EBCT recomputed. */
module App {
  import opened Wrappers
  import opened Calculator
  import opened GraphStore
  import opened RagChain

  /** The caller's `used` value: JSON `null`, or an object of numbers. */
  datatype Used = Null | Values(m: map<string, real>)

  /** The `used` object holds a volume and a non-zero flow. */
  predicate HasVolumeFlow(m: map<string, real>) {
    "volume_gal" in m && "flow_gpm" in m && m["flow_gpm"] != 0.0
  }

  /** The `used` object holds a diameter, a height and a non-zero flow. */
  predicate HasDimsFlow(m: map<string, real>) {
    "diam_ft" in m && "height_ft" in m && "flow_gpm" in m && m["flow_gpm"] != 0.0
  }

  /** `compute_from_used`: `None` for a null or empty `used`; the volume
      over the flow when both are known; otherwise the cylinder volume over
      the flow when diameter, height and flow are known; never a division
      by a zero flow. */
  function ComputeFromUsed(u: Used): (r: Option<real>)
    ensures (u.Null? || (u.Values? && u.m == map[])) ==> r.None?
    ensures r.Some? <==> u.Values? && (HasVolumeFlow(u.m) || HasDimsFlow(u.m))
    ensures r.Some? && HasVolumeFlow(u.m) ==>
      r.value == Ebct(u.m["volume_gal"], u.m["flow_gpm"])
    ensures r.Some? && !HasVolumeFlow(u.m) ==>
      r.value == Ebct(CylinderGallons(u.m["diam_ft"], u.m["height_ft"]), u.m["flow_gpm"])
  {
    match u
    case Null => None
    case Values(m) =>
      if m == map[] then None
      else if HasVolumeFlow(m) then Some(Ebct(m["volume_gal"], m["flow_gpm"]))
      else if HasDimsFlow(m) then
        Some(Ebct(CylinderGallons(m["diam_ft"], m["height_ft"]), m["flow_gpm"]))
      else None
  }

  /** Volume and flow take precedence: extra dimensions never change the
      result once a volume and a non-zero flow are known. */
  lemma VolumeTakesPrecedence(m: map<string, real>, d: real, h: real)
    requires HasVolumeFlow(m)
    ensures ComputeFromUsed(Values(m["diam_ft" := d]["height_ft" := h]))
      == ComputeFromUsed(Values(m))
  {
    var m' := m["diam_ft" := d]["height_ft" := h];
    assert HasVolumeFlow(m') && m'["volume_gal"] == m["volume_gal"] && m'["flow_gpm"] == m["flow_gpm"];
  }

  /** A chat message; its `content` may be missing. */
  datatype Message = Message(content: Option<string>)

  /** The caller's state; `used` may be missing. */
  datatype ChatState = ChatState(used: Option<Used>)

  /** The reply of a turn: the sentence reporting a computed EBCT (its
      number rounded for display), or prose from the retrieval chain. */
  datatype Reply = EbctSentence(minutes: real) | Prose(text: string)

  /** A turn's response: an error for an empty message list, or the reply,
      the rationale and the `calc` block. */
  datatype ChatOutcome =
    | NoMessages
    | Answered(reply: Reply, rationale: string, minutes: Option<real>, used: Used)

  const DirectRationale: string := "Direct calculation performed."

  /** The text of the last message, `""` when it has none. */
  function LastText(messages: seq<Message>): string
    requires |messages| > 0
  {
    messages[|messages| - 1].content.GetOr("")
  }

  /** `detail.get("units_normalized", {})` of a successful result. */
  function NormalizedOf(detail: map<string, DetailEntry>): Used {
    if "units_normalized" in detail && detail["units_normalized"].UnitsNormalized?
    then Values(detail["units_normalized"].units)
    else Values(map[])
  }

  /** The routing of `chat` once the calculator has answered with `res`:
      a successful result is reported directly; anything else is answered
      by the retrieval chain `chain`, applied to the message only then, and
      the caller's `used` (an empty object when missing) is echoed with its
      EBCT recomputed. */
  function Route(msg: string, res: CalcResult, state: ChatState, chain: string --> RagAnswer): (r: ChatOutcome)
    requires chain.requires(msg)
    ensures r.Answered?
    ensures res.Computed? ==>
      && r.reply == EbctSentence(res.minutes) && r.rationale == DirectRationale
      && r.minutes == Some(res.minutes) && r.used == NormalizedOf(res.detail)
    ensures res.Insufficient? ==>
      && r.reply == Prose(chain(msg).reply) && r.rationale == chain(msg).rationale
      && r.used == state.used.GetOr(Values(map[]))
      && r.minutes == ComputeFromUsed(r.used)
  {
    match res
    case Computed(_, minutes, detail) =>
      Answered(EbctSentence(minutes), DirectRationale, Some(minutes), NormalizedOf(detail))
    case Insufficient(_) =>
      var rag := chain(msg);
      var used := state.used.GetOr(Values(map[]));
      Answered(Prose(rag.reply), rag.rationale, ComputeFromUsed(used), used)
  }

  /** `chat`: the last message's text is scanned by `extract` (the
      quantity extractor), and the calculator's answer routed, with the
      retrieval chain over graph `g` and generator `gen` as the fallback. */
  function Chat(messages: seq<Message>, state: ChatState, extract: string -> Scan,
                g: Graph, gen: Generator): (r: ChatOutcome)
    requires Valid(g)
    ensures r.NoMessages? <==> |messages| == 0
    ensures |messages| > 0 ==>
      var msg := LastText(messages);
      var res := ComputeEbct(extract(msg));
      && (res.Computed? ==>
            && r.reply == EbctSentence(res.minutes) && r.rationale == DirectRationale
            && r.minutes == Some(res.minutes) && r.used == Values(map[]))
      && (res.Insufficient? ==>
            && r.reply == Prose(ExecuteRagChain(g, msg, gen).reply)
            && r.rationale == ExecuteRagChain(g, msg, gen).rationale
            && r.used == state.used.GetOr(Values(map[]))
            && r.minutes == ComputeFromUsed(r.used))
  {
    if |messages| == 0 then NoMessages
    else
      var msg := LastText(messages);
      Route(msg, ComputeEbct(extract(msg)), state, q requires Valid(g) => ExecuteRagChain(g, q, gen))
  }

  /** A successful calculation answers the same whatever the retrieval
      chain and the caller's state: the chain is not consulted. */
  lemma DirectPathIndependent(msg: string, res: CalcResult,
                              s1: ChatState, c1: string --> RagAnswer,
                              s2: ChatState, c2: string --> RagAnswer)
    requires res.Computed? && c1.requires(msg) && c2.requires(msg)
    ensures Route(msg, res, s1, c1) == Route(msg, res, s2, c2)
  {
  }

  /** On the retrieval path the reported minutes are those of the caller's
      own quantities: a stated volume and non-zero flow give their ratio. */
  lemma FallbackRecomputesState(msg: string, res: CalcResult, chain: string --> RagAnswer,
                                m: map<string, real>)
    requires res.Insufficient? && chain.requires(msg) && HasVolumeFlow(m)
    ensures var r := Route(msg, res, ChatState(Some(Values(m))), chain);
      r.used == Values(m) && r.minutes == Some(Ebct(m["volume_gal"], m["flow_gpm"]))
  {
  }

  /** As written, a direct answer reports minutes but hands back a `used`
      from which no later turn can recompute them. */
  lemma DirectUsedIsEmpty(msg: string, s: Scan, state: ChatState, chain: string --> RagAnswer)
    requires ComputeEbct(s).Computed? && chain.requires(msg)
    ensures var r := Route(msg, ComputeEbct(s), state, chain);
      r.minutes == Some(ComputeEbct(s).minutes) && ComputeFromUsed(r.used).None?
  {
  }

  /** The normalised quantities a successful calculation used, under the
      keys `compute_from_used` reads. */
  function UnitsUsed(s: Scan): map<string, real>
    requires ComputeEbct(s).Computed?
  {
    if VolumePathApplies(s) then
      map["volume_gal" := VolumeGal(s).value, "flow_gpm" := FlowGpm(s).value]
    else
      map["diam_ft" := DiameterFt(s), "height_ft" := HeightFt(s), "flow_gpm" := FlowGpm(s).value]
  }

  /** `compute_ebct` with the `units_normalized` entry its caller reads. */
  function IntendedEbct(s: Scan): (r: CalcResult)
    ensures r.Computed? <==> ComputeEbct(s).Computed?
    ensures r.Computed? ==>
      && r.via == ComputeEbct(s).via
      && r.minutes == ComputeEbct(s).minutes
      && NormalizedOf(r.detail) == Values(UnitsUsed(s))
      && r.detail.Keys == ComputeEbct(s).detail.Keys + {"units_normalized"}
      && forall k :: k in ComputeEbct(s).detail ==> r.detail[k] == ComputeEbct(s).detail[k]
    ensures r.Insufficient? ==> r == ComputeEbct(s)
  {
    match ComputeEbct(s)
    case Computed(via, minutes, detail) =>
      Computed(via, minutes, detail["units_normalized" := UnitsNormalized(UnitsUsed(s))])
    case Insufficient(need) => Insufficient(need)
  }

  /** With the corrected result, recomputing from the `used` a direct
      answer hands back gives exactly the EBCT it reported. */
  lemma IntendedUsedRecomputes(msg: string, s: Scan, state: ChatState, chain: string --> RagAnswer)
    requires ComputeEbct(s).Computed? && chain.requires(msg)
    ensures var r := Route(msg, IntendedEbct(s), state, chain);
      r.minutes == Some(ComputeEbct(s).minutes) && ComputeFromUsed(r.used) == r.minutes
  {
    RecomputeAgrees(s);
  }

  /** `compute_from_used` of the quantities a calculation used gives the
      calculation's own minutes, on either formula path. */
  lemma RecomputeAgrees(s: Scan)
    requires ComputeEbct(s).Computed?
    ensures ComputeFromUsed(Values(UnitsUsed(s))) == Some(ComputeEbct(s).minutes)
  {
    var q := FlowGpm(s).value;
    if VolumePathApplies(s) {
      RecomputeVolumeFlow(VolumeGal(s).value, q);
    } else {
      RecomputeDimsFlow(DiameterFt(s), HeightFt(s), q);
    }
  }

  /** A volume and a non-zero flow recompute to the EBCT of that volume
      under that flow. */
  lemma RecomputeVolumeFlow(v: real, q: real)
    requires q != 0.0
    ensures ComputeFromUsed(Values(map["volume_gal" := v, "flow_gpm" := q])) == Some(Ebct(v, q))
  {
    var u := map["volume_gal" := v, "flow_gpm" := q];
    assert HasVolumeFlow(u) && u["volume_gal"] == v && u["flow_gpm"] == q;
  }

  /** A diameter, a height and a non-zero flow, with no volume, recompute to
      the EBCT of the cylinder under that flow. */
  lemma RecomputeDimsFlow(d: real, h: real, q: real)
    requires q != 0.0
    ensures ComputeFromUsed(Values(map["diam_ft" := d, "height_ft" := h, "flow_gpm" := q]))
      == Some(Ebct(CylinderGallons(d, h), q))
  {
    var u := map["diam_ft" := d, "height_ft" := h, "flow_gpm" := q];
    assert "volume_gal" !in u;
    assert HasDimsFlow(u) && u["diam_ft"] == d && u["height_ft"] == h && u["flow_gpm"] == q;
  }
}

=== FILE: calculator.dfy ===
/** The deterministic EBCT calculator: unit normalisation of scanned
    quantities and the prioritised choice of formula (volume and flow first,
    then a cylinder built from two dimensions and flow, otherwise a list of
    what is missing). */
module Calculator {
  import opened Wrappers
  import opened Seqs

  const GalPerFt3: real := 7.48052
  const GalPerM3: real := 264.172
  const FtPerM: real := 3.28084
  /** Litres in one US gallon, the divisor for L/min. */
  const LitresPerGal: real := 3.78541
  /** Python's `math.pi` as a decimal; proofs use only that it is positive. */
  const Pi: real := 3.141592653589793

  /** One scanner hit: the unsigned decimal, the lower-cased unit tag and the
      offset of the hit in the message. */
  datatype Match = Match(v: real, u: string, i: int)

  /** Everything the three unit patterns find in one message, each list in
      text order. The lists may overlap: the dimension pattern also fires
      inside `ft3` and `m3/h`, and the volume pattern fires inside `m3/h`,
      so a message stating only a flow such as "3.5 m3/h" also yields a
      3.5 m3 volume hit and takes the volume path (about 60 minutes, the
      ratio of the two conversion factors). */
  datatype Scan = Scan(flows: seq<Match>, volumes: seq<Match>, dims: seq<Match>)

  /** The scanner only recognises unsigned decimals. */
  predicate Unsigned(s: Scan) {
    && (forall k :: 0 <= k < |s.flows| ==> s.flows[k].v >= 0.0)
    && (forall k :: 0 <= k < |s.volumes| ==> s.volumes[k].v >= 0.0)
    && (forall k :: 0 <= k < |s.dims| ==> s.dims[k].v >= 0.0)
  }

  const FlowUnits: set<string> := {"gpm", "l/min", "lpm", "m3/h", "m\U{B3}/h"}
  const VolumeUnits: set<string> := {"gal", "ft3", "ft\U{B3}", "m3", "m\U{B3}"}
  const LengthUnits: set<string> := {"ft", "in", "m"}

  /** `x[0] if x else None`. */
  function First(ms: seq<Match>): (r: Option<Match>)
    ensures r.Some? <==> |ms| > 0
    ensures r.Some? ==> r.value == ms[0]
  {
    if |ms| > 0 then Some(ms[0]) else None
  }

  /** Python truthiness of an optional float: present and non-zero. */
  predicate Nonzero(x: Option<real>) {
    x.Some? && x.value != 0.0
  }

  /** `to_gpm`: a flow reading in gallons per minute. */
  function ToGpm(flow: Option<Match>): (r: Option<real>)
    ensures r.Some? <==> flow.Some? && flow.value.u in FlowUnits
    ensures r.Some? ==> (r.value == 0.0 <==> flow.value.v == 0.0)
    ensures r.Some? ==> (r.value > 0.0 <==> flow.value.v > 0.0)
  {
    match flow
    case None => None
    case Some(m) =>
      if m.u == "gpm" then Some(m.v)
      else if m.u == "l/min" || m.u == "lpm" then Some(m.v / LitresPerGal)
      else if m.u == "m3/h" || m.u == "m\U{B3}/h" then Some((m.v * GalPerM3) / 60.0)
      else None
  }

  /** The reading, in unit `u`, of a flow of `gpm` gallons per minute. */
  function FromGpm(gpm: real, u: string): real
    requires u in FlowUnits
  {
    if u == "gpm" then gpm
    else if u == "l/min" || u == "lpm" then gpm * LitresPerGal
    else gpm * 60.0 / GalPerM3
  }

  /** Converting a flow into any recognised unit and back gives the flow. */
  lemma GpmRoundTrip(gpm: real, u: string, at: int)
    requires u in FlowUnits
    ensures ToGpm(Some(Match(FromGpm(gpm, u), u, at))) == Some(gpm)
  {
  }

  /** `to_gal`: a volume reading in gallons. */
  function ToGal(vol: Option<Match>): (r: Option<real>)
    ensures r.Some? <==> vol.Some? && vol.value.u in VolumeUnits
    ensures r.Some? ==> (r.value == 0.0 <==> vol.value.v == 0.0)
    ensures r.Some? ==> (r.value > 0.0 <==> vol.value.v > 0.0)
  {
    match vol
    case None => None
    case Some(m) =>
      if m.u == "gal" then Some(m.v)
      else if m.u == "ft3" || m.u == "ft\U{B3}" then Some(m.v * GalPerFt3)
      else if m.u == "m3" || m.u == "m\U{B3}" then Some(m.v * GalPerM3)
      else None
  }

  /** The reading, in unit `u`, of a volume of `gal` gallons. */
  function FromGal(gal: real, u: string): real
    requires u in VolumeUnits
  {
    if u == "gal" then gal
    else if u == "ft3" || u == "ft\U{B3}" then gal / GalPerFt3
    else gal / GalPerM3
  }

  /** Converting a volume into any recognised unit and back gives the volume. */
  lemma GalRoundTrip(gal: real, u: string, at: int)
    requires u in VolumeUnits
    ensures ToGal(Some(Match(FromGal(gal, u), u, at))) == Some(gal)
  {
  }

  /** `to_feet`: a length in feet; an unrecognised unit leaves the number as it is. */
  function ToFeet(val: real, unit: string): (r: real)
    ensures unit !in LengthUnits ==> r == val
    ensures r == 0.0 <==> val == 0.0
    ensures r > 0.0 <==> val > 0.0
  {
    if unit == "ft" then val
    else if unit == "in" then val / 12.0
    else if unit == "m" then val * FtPerM
    else val
  }

  /** The reading, in unit `unit`, of a length of `ft` feet. */
  function FromFeet(ft: real, unit: string): real {
    if unit == "in" then ft * 12.0
    else if unit == "m" then ft / FtPerM
    else ft
  }

  /** Converting a length into any unit and back gives the length. */
  lemma FeetRoundTrip(ft: real, unit: string)
    ensures ToFeet(FromFeet(ft, unit), unit) == ft
  {
  }

  /** Gallons held by an upright cylinder of diameter `dFt` and height `hFt` feet. */
  function CylinderGallons(dFt: real, hFt: real): real {
    Pi * (dFt / 2.0) * (dFt / 2.0) * hFt * GalPerFt3
  }

  /** Scaling the diameter by `k` scales the volume by `k` squared; scaling the
      height by `k` scales it by `k`. */
  lemma CylinderScaling(dFt: real, hFt: real, k: real)
    ensures CylinderGallons(k * dFt, hFt) == k * k * CylinderGallons(dFt, hFt)
    ensures CylinderGallons(dFt, k * hFt) == k * CylinderGallons(dFt, hFt)
  {
  }

  datatype Path = VolumeFlow | DimsFlow

  /** The `via` tag of a successful result. */
  function ViaTag(p: Path): string {
    match p
    case VolumeFlow => "volume+flow"
    case DimsFlow => "dims+flow (assume cylinder)"
  }

  datatype Hint = FlowHint | VolumeHint

  function HintText(h: Hint): string {
    match h
    case FlowHint => "Flow rate (e.g., 800 gpm, 3.5 m3/h)"
    case VolumeHint =>
      "Bed volume (e.g., 9600 gal) or tank dimensions (e.g., 10 ft diameter, 8 ft height)"
  }

  /** A value of the `detail` map of a successful result. */
  datatype DetailEntry =
    | VolumeInputs(flow: Match, volume: Match)
    | DimsInputs(flow: Match, dFt: real, hFt: real)
    | Formula(text: string)
    | UnitsNormalized(units: map<string, real>)

  datatype CalcResult =
    | Computed(via: Path, minutes: real, detail: map<string, DetailEntry>)
    | Insufficient(need: seq<Hint>)

  /** Flow of the first flow hit, in gallons per minute. */
  function FlowGpm(s: Scan): Option<real> {
    ToGpm(First(s.flows))
  }

  /** Volume of the first volume hit, in gallons. */
  function VolumeGal(s: Scan): Option<real> {
    ToGal(First(s.volumes))
  }

  /** The volume-and-flow formula is used: a volume hit normalises to a
      non-zero number of gallons and the flow to a non-zero gpm. */
  predicate VolumePathApplies(s: Scan) {
    |s.volumes| > 0 && Nonzero(FlowGpm(s)) && Nonzero(VolumeGal(s))
  }

  /** The cylinder formula is used: the volume path did not apply, there are
      two dimension hits and a non-zero flow. */
  predicate DimsPathApplies(s: Scan) {
    !VolumePathApplies(s) && |s.dims| >= 2 && Nonzero(FlowGpm(s))
  }

  /** Diameter (first dimension hit) and height (second hit), in feet. */
  function DiameterFt(s: Scan): real
    requires |s.dims| >= 2
  {
    ToFeet(s.dims[0].v, s.dims[0].u)
  }

  function HeightFt(s: Scan): real
    requires |s.dims| >= 2
  {
    ToFeet(s.dims[1].v, s.dims[1].u)
  }

  /** EBCT in minutes of a bed of `gal` gallons under `gpm` gallons per
      minute: the bed volume over the flow. */
  function Ebct(gal: real, gpm: real): (m: real)
    requires gpm != 0.0
    ensures m * gpm == gal
    ensures gal >= 0.0 && gpm > 0.0 ==> m >= 0.0
  {
    DivTimes(gal, gpm);
    gal / gpm
  }

  /** The result of the volume-and-flow formula. */
  function VolumeResult(s: Scan): (r: CalcResult)
    requires VolumePathApplies(s)
    ensures r.Computed? && r.via == VolumeFlow && "units_normalized" !in r.detail
    ensures r.minutes == Ebct(VolumeGal(s).value, FlowGpm(s).value)
  {
    Computed(VolumeFlow, Ebct(VolumeGal(s).value, FlowGpm(s).value),
      map["inputs" := VolumeInputs(s.flows[0], s.volumes[0]),
          "formula" := Formula("EBCT(min) = Volume(gal) / Flow(gal/min)")])
  }

  /** The result of the cylinder formula. */
  function DimsResult(s: Scan): (r: CalcResult)
    requires |s.dims| >= 2 && Nonzero(FlowGpm(s))
    ensures r.Computed? && r.via == DimsFlow && "units_normalized" !in r.detail
    ensures r.minutes == Ebct(CylinderGallons(DiameterFt(s), HeightFt(s)), FlowGpm(s).value)
  {
    Computed(DimsFlow, Ebct(CylinderGallons(DiameterFt(s), HeightFt(s)), FlowGpm(s).value),
      map["inputs" := DimsInputs(s.flows[0], DiameterFt(s), HeightFt(s)),
          "formula" := Formula("V(ft\U{B3})=\U{3C0}*(D/2)\U{B2}*H; EBCT(min)=V(gal)/Flow(gpm); 1 ft\U{B3}=7.48052 gal")])
  }

  /** The hints of an unsuccessful result: flow when the flow is absent or
      zero, then volume when there is neither a volume hit nor two
      dimension hits. */
  function Missing(s: Scan): (need: seq<Hint>)
    ensures FlowHint in need <==> !Nonzero(FlowGpm(s))
    ensures VolumeHint in need <==> |s.volumes| == 0 && |s.dims| < 2
    ensures Distinct(need) && (|need| == 2 ==> need[0] == FlowHint)
  {
    (if !Nonzero(FlowGpm(s)) then [FlowHint] else [])
    + (if |s.volumes| == 0 && |s.dims| < 2 then [VolumeHint] else [])
  }

  /** `compute_ebct` on the hits of one message. */
  function ComputeEbct(s: Scan): (r: CalcResult)
    ensures r.Computed? && r.via == VolumeFlow <==> VolumePathApplies(s)
    ensures r.Computed? && r.via == DimsFlow <==> DimsPathApplies(s)
    ensures r.Computed? && r.via == VolumeFlow ==>
      r.minutes == Ebct(VolumeGal(s).value, FlowGpm(s).value)
    ensures r.Computed? && r.via == DimsFlow ==>
      r.minutes == Ebct(CylinderGallons(DiameterFt(s), HeightFt(s)), FlowGpm(s).value)
    ensures r.Computed? ==> "units_normalized" !in r.detail
    ensures r.Insufficient? ==> (FlowHint in r.need <==> !Nonzero(FlowGpm(s)))
    ensures r.Insufficient? ==>
      (VolumeHint in r.need <==> |s.volumes| == 0 && |s.dims| < 2)
    ensures r.Insufficient? ==> Distinct(r.need) && (|r.need| == 2 ==> r.need[0] == FlowHint)
  {
    if VolumePathApplies(s) then VolumeResult(s)
    else if |s.dims| >= 2 && Nonzero(FlowGpm(s)) then DimsResult(s)
    else Insufficient(Missing(s))
  }

  /** Dividing by a non-zero number and multiplying back is the identity. */
  lemma DivTimes(x: real, q: real)
    requires q != 0.0
    ensures (x / q) * q == x
  {
  }

  /** Every successful result of an unsigned scan has a non-negative number
      of minutes; neither division can be by zero. */
  lemma OkMinutesNonNegative(s: Scan)
    requires Unsigned(s)
    ensures ComputeEbct(s).Computed? ==> ComputeEbct(s).minutes >= 0.0
  {
    var r := ComputeEbct(s);
    if r.Computed? {
      assert FlowGpm(s).value > 0.0;
      if r.via == DimsFlow {
        CylinderNonNegative(DiameterFt(s), HeightFt(s));
      }
    }
  }

  /** A cylinder of non-negative diameter and height holds a non-negative volume. */
  lemma CylinderNonNegative(dFt: real, hFt: real)
    requires dFt >= 0.0 && hFt >= 0.0
    ensures CylinderGallons(dFt, hFt) >= 0.0
  {
    var a := Pi * ((dFt / 2.0) * (dFt / 2.0));
    assert a >= 0.0;
    assert a * hFt >= 0.0;
  }

  /** Only the first flow hit, the first volume hit and the first two
      dimension hits influence the result. */
  lemma LaterMatchesIgnored(s: Scan)
    ensures ComputeEbct(s) == ComputeEbct(Scan(Take(s.flows, 1), Take(s.volumes, 1), Take(s.dims, 2)))
  {
    var t := Scan(Take(s.flows, 1), Take(s.volumes, 1), Take(s.dims, 2));
    assert First(t.flows) == First(s.flows) && First(t.volumes) == First(s.volumes);
    assert VolumePathApplies(t) == VolumePathApplies(s);
    if |s.dims| >= 2 {
      assert t.dims[0] == s.dims[0] && t.dims[1] == s.dims[1];
    }
  }

  /** The code can give up without naming anything missing: exactly when a
      volume hit and a non-zero flow are present but the volume does not
      normalise to non-zero gallons and there are fewer than two dimension hits. */
  lemma EmptyNeedExactly(s: Scan)
    ensures ComputeEbct(s) == Insufficient([]) <==>
      |s.volumes| > 0 && Nonzero(FlowGpm(s)) && !Nonzero(VolumeGal(s)) && |s.dims| < 2
  {
  }

  /** "flow 800 gpm, bed volume 9600 gal" is 12 minutes by the volume path. */
  lemma WorkedExample()
    ensures ComputeEbct(Scan([Match(800.0, "gpm", 5)], [Match(9600.0, "gal", 25)], []))
      == Computed(VolumeFlow, 12.0,
           map["inputs" := VolumeInputs(Match(800.0, "gpm", 5), Match(9600.0, "gal", 25)),
               "formula" := Formula("EBCT(min) = Volume(gal) / Flow(gal/min)")])
  {
  }

  /** One cubic metre is 264.172 gallons; one litre per minute is 1/3.78541 gpm. */
  lemma UnitExamples()
    ensures ToGal(Some(Match(1.0, "m3", 0))) == Some(264.172)
    ensures ToGpm(Some(Match(1.0, "l/min", 0))) == Some(1.0 / 3.78541)
  {
  }
}

=== FILE: graph.dfy ===
/** The mutable knowledge-graph store: a directed graph whose nodes and
    edges carry attribute maps, five guarded mutations that report success
    as a boolean, and the default concept/risk/advice graph. Persistence
    after each successful mutation is not modelled. */
module GraphStore {
  import opened Seqs

  type NodeId = string

  /** An attribute value: a string, or a list of strings such as `aliases`. */
  datatype Value = Text(s: string) | Texts(items: seq<string>)

  type Attrs = map<string, Value>

  /** An ordered pair of node ids; a directed graph has at most one edge per pair. */
  datatype Edge = Edge(src: NodeId, dst: NodeId)

  /** A directed graph: node ids in insertion order with their attribute maps,
      and edges in insertion order with theirs. */
  datatype Graph = Graph(
    order: seq<NodeId>,
    attrs: map<NodeId, Attrs>,
    links: seq<Edge>,
    linkAttrs: map<Edge, Attrs>)

  /** The representation invariant: the orders list each node and edge once,
      agree with the attribute maps, and every edge joins two nodes. */
  predicate Valid(g: Graph) {
    && Distinct(g.order)
    && (forall i :: 0 <= i < |g.order| ==> g.order[i] in g.attrs)
    && (forall n :: n in g.attrs ==> n in g.order)
    && Distinct(g.links)
    && (forall i :: 0 <= i < |g.links| ==> g.links[i] in g.linkAttrs)
    && (forall e :: e in g.linkAttrs ==> e in g.links)
    && (forall e :: e in g.linkAttrs ==> e.src in g.attrs && e.dst in g.attrs)
  }

  /** The outcome of a mutation: the graph afterwards and the success flag. */
  datatype Change = Change(graph: Graph, ok: bool)

  /** `add_node`: fails on an existing id; otherwise adds the node, last in order. */
  function AddNode(g: Graph, id: NodeId, a: Attrs): (r: Change)
    requires Valid(g)
    ensures Valid(r.graph)
    ensures r.ok <==> id !in g.attrs
    ensures !r.ok ==> r.graph == g
    ensures r.ok ==> r.graph.attrs.Keys == g.attrs.Keys + {id} && r.graph.attrs[id] == a
    ensures forall n :: n in g.attrs ==> n in r.graph.attrs && r.graph.attrs[n] == g.attrs[n]
    ensures r.graph.linkAttrs == g.linkAttrs && r.graph.links == g.links
    ensures r.ok ==> r.graph.order == g.order + [id]
  {
    if id in g.attrs then Change(g, false)
    else Change(g.(order := g.order + [id], attrs := g.attrs[id := a]), true)
  }

  /** `update_node`: fails on a missing id; otherwise overwrites exactly the
      supplied keys of that node. */
  function UpdateNode(g: Graph, id: NodeId, a: Attrs): (r: Change)
    requires Valid(g)
    ensures Valid(r.graph)
    ensures r.ok <==> id in g.attrs
    ensures !r.ok ==> r.graph == g
    ensures r.graph.attrs.Keys == g.attrs.Keys
    ensures r.ok ==> forall k :: k in a ==> k in r.graph.attrs[id] && r.graph.attrs[id][k] == a[k]
    ensures r.ok ==> forall k :: k !in a ==>
      (k in r.graph.attrs[id] <==> k in g.attrs[id])
      && (k in g.attrs[id] ==> r.graph.attrs[id][k] == g.attrs[id][k])
    ensures forall n :: n in g.attrs && n != id ==> r.graph.attrs[n] == g.attrs[n]
    ensures r.graph.order == g.order
    ensures r.graph.linkAttrs == g.linkAttrs && r.graph.links == g.links
  {
    if id !in g.attrs then Change(g, false)
    else Change(g.(attrs := g.attrs[id := g.attrs[id] + a]), true)
  }

  /** The attributes of the nodes in `keep`. */
  function KeptNodes(attrs: map<NodeId, Attrs>, keep: set<NodeId>): (r: map<NodeId, Attrs>)
    ensures r.Keys == attrs.Keys * keep
    ensures forall n :: n in r ==> r[n] == attrs[n]
  {
    map n | n in attrs && n in keep :: attrs[n]
  }

  /** The attributes of the edges between nodes in `keep`. */
  function KeptLinks(linkAttrs: map<Edge, Attrs>, keep: set<NodeId>): (r: map<Edge, Attrs>)
    ensures forall e :: e in r <==> e in linkAttrs && e.src in keep && e.dst in keep
    ensures forall e :: e in r ==> r[e] == linkAttrs[e]
  {
    map e | e in linkAttrs && e.src in keep && e.dst in keep :: linkAttrs[e]
  }

  /** The node test "is in `keep`". */
  function Kept(keep: set<NodeId>): NodeId -> bool {
    n => n in keep
  }

  /** The edge test "both ends are in `keep`". */
  function Within(keep: set<NodeId>): Edge -> bool {
    (e: Edge) => e.src in keep && e.dst in keep
  }

  /** The edge test "neither end is `id`". */
  function Avoids(id: NodeId): Edge -> bool {
    (e: Edge) => e.src != id && e.dst != id
  }

  /** The subgraph induced by `keep`: the nodes of `g` in `keep`, in their
      order, and exactly the edges of `g` between them, in their order. */
  function Induced(g: Graph, keep: set<NodeId>): (r: Graph)
    ensures Valid(g) ==> Valid(r)
    ensures r.attrs.Keys == g.attrs.Keys * keep
    ensures forall n :: n in r.attrs ==> r.attrs[n] == g.attrs[n]
    ensures forall e :: e in r.linkAttrs <==> e in g.linkAttrs && e.src in keep && e.dst in keep
    ensures forall e :: e in r.linkAttrs ==> r.linkAttrs[e] == g.linkAttrs[e]
    ensures r.order == Filter(g.order, Kept(keep)) && r.links == Filter(g.links, Within(keep))
  {
    var kept := Kept(keep);
    var joins := Within(keep);
    var r := Graph(Filter(g.order, kept), KeptNodes(g.attrs, keep),
                   Filter(g.links, joins), KeptLinks(g.linkAttrs, keep));
    assert Valid(g) ==> Valid(r) by {
      if Valid(g) {
        forall n | n in r.attrs ensures n in r.order {
          FilterHas(g.order, kept, n);
        }
        forall e | e in r.linkAttrs ensures e in r.links {
          FilterHas(g.links, joins, e);
        }
      }
    }
    r
  }

  /** An element of `s` that satisfies `p` survives the filter. */
  lemma FilterHas<T>(s: seq<T>, p: T -> bool, x: T)
    requires x in s && p(x)
    ensures x in Filter(s, p)
  {
    var i :| 0 <= i < |s| && s[i] == x;
  }

  /** `delete_node`: fails on a missing id; otherwise removes the node and
      every edge into or out of it, and nothing else. */
  function DeleteNode(g: Graph, id: NodeId): (r: Change)
    requires Valid(g)
    ensures Valid(r.graph)
    ensures r.ok <==> id in g.attrs
    ensures !r.ok ==> r.graph == g
    ensures r.graph.attrs.Keys == g.attrs.Keys - {id}
    ensures forall n :: n in r.graph.attrs ==> r.graph.attrs[n] == g.attrs[n]
    ensures forall e :: e in r.graph.linkAttrs <==> e in g.linkAttrs && e.src != id && e.dst != id
    ensures forall e :: e in r.graph.linkAttrs ==> r.graph.linkAttrs[e] == g.linkAttrs[e]
    ensures r.ok ==> r.graph.order == Filter(g.order, Except(id))
    ensures r.ok ==> r.graph.links == Filter(g.links, Avoids(id))
  {
    if id !in g.attrs then Change(g, false)
    else
      InducedWithout(g, id);
      InducedWithoutOrders(g, id);
      Change(Induced(g, g.attrs.Keys - {id}), true)
  }

  /** Keeping every node but `id` keeps exactly the edges that do not touch it. */
  lemma InducedWithout(g: Graph, id: NodeId)
    requires Valid(g)
    ensures var h := Induced(g, g.attrs.Keys - {id});
      && h.attrs.Keys == g.attrs.Keys - {id}
      && forall e :: e in h.linkAttrs <==> e in g.linkAttrs && e.src != id && e.dst != id
  {
    var keep := g.attrs.Keys - {id};
    EndpointsWithout(g.linkAttrs, g.attrs.Keys, id);
    assert Induced(g, keep).attrs.Keys == g.attrs.Keys * keep;
  }

  /** For edges between members of `nodes`, having both ends among `nodes`
      other than `id` is having neither end be `id`. */
  lemma EndpointsWithout(linkAttrs: map<Edge, Attrs>, nodes: set<NodeId>, id: NodeId)
    requires forall e :: e in linkAttrs ==> e.src in nodes && e.dst in nodes
    ensures forall e ::
      (e in linkAttrs && e.src in nodes - {id} && e.dst in nodes - {id})
      <==> (e in linkAttrs && e.src != id && e.dst != id)
  {
  }

  /** Keeping every node but `id` loses from the node order exactly `id`
      and from the edge order exactly the edges touching `id`. */
  lemma InducedWithoutOrders(g: Graph, id: NodeId)
    requires Valid(g)
    ensures var h := Induced(g, g.attrs.Keys - {id});
      && h.order == Filter(g.order, Except(id))
      && h.links == Filter(g.links, Avoids(id))
  {
    KeptIsExcept(g.order, g.attrs.Keys, id);
    assert forall i :: 0 <= i < |g.links| ==> g.links[i] in g.linkAttrs;
    WithinIsAvoids(g.links, g.attrs.Keys, id);
  }

  /** Over a sequence of members of `nodes`, "in `nodes` but not `id`" is "not `id`". */
  lemma KeptIsExcept(order: seq<NodeId>, nodes: set<NodeId>, id: NodeId)
    requires forall i :: 0 <= i < |order| ==> order[i] in nodes
    ensures Filter(order, Kept(nodes - {id})) == Filter(order, Except(id))
  {
    FilterSame(order, Kept(nodes - {id}), Except(id));
  }

  /** Over edges between members of `nodes`, "both ends in `nodes` but not
      `id`" is "neither end is `id`". */
  lemma WithinIsAvoids(links: seq<Edge>, nodes: set<NodeId>, id: NodeId)
    requires forall i :: 0 <= i < |links| ==> links[i].src in nodes && links[i].dst in nodes
    ensures Filter(links, Within(nodes - {id})) == Filter(links, Avoids(id))
  {
    FilterSame(links, Within(nodes - {id}), Avoids(id));
  }

  /** `add_edge`: fails when an endpoint is missing or the ordered pair is
      already an edge; otherwise adds exactly that edge. */
  function AddEdge(g: Graph, s: NodeId, t: NodeId, a: Attrs): (r: Change)
    requires Valid(g)
    ensures Valid(r.graph)
    ensures r.ok <==> s in g.attrs && t in g.attrs && Edge(s, t) !in g.linkAttrs
    ensures !r.ok ==> r.graph == g
    ensures r.graph.attrs == g.attrs && r.graph.order == g.order
    ensures r.ok ==>
      r.graph.linkAttrs.Keys == g.linkAttrs.Keys + {Edge(s, t)} && r.graph.linkAttrs[Edge(s, t)] == a
    ensures forall e :: e in g.linkAttrs ==> e in r.graph.linkAttrs && r.graph.linkAttrs[e] == g.linkAttrs[e]
    ensures r.ok ==> r.graph.links == g.links + [Edge(s, t)]
  {
    if s !in g.attrs || t !in g.attrs then Change(g, false)
    else if Edge(s, t) in g.linkAttrs then Change(g, false)
    else
      var e := Edge(s, t);
      assert e !in g.links;
      PrependDistinct(e, []);
      AppendDistinct(g.links, e);
      Change(g.(links := g.links + [e], linkAttrs := g.linkAttrs[e := a]), true)
  }

  /** Appending a fresh element to a distinct sequence keeps it distinct. */
  lemma AppendDistinct<T>(s: seq<T>, x: T)
    requires Distinct(s) && x !in s
    ensures Distinct(s + [x])
  {
  }

  /** `delete_edge`: fails when the ordered pair is not an edge; otherwise
      removes exactly that edge. */
  function DeleteEdge(g: Graph, s: NodeId, t: NodeId): (r: Change)
    requires Valid(g)
    ensures Valid(r.graph)
    ensures r.ok <==> Edge(s, t) in g.linkAttrs
    ensures !r.ok ==> r.graph == g
    ensures r.graph.attrs == g.attrs && r.graph.order == g.order
    ensures r.graph.linkAttrs.Keys == g.linkAttrs.Keys - {Edge(s, t)}
    ensures forall e :: e in r.graph.linkAttrs ==> r.graph.linkAttrs[e] == g.linkAttrs[e]
    ensures r.ok ==> r.graph.links == Filter(g.links, Except(Edge(s, t)))
  {
    var e := Edge(s, t);
    if e !in g.linkAttrs then Change(g, false)
    else
      var other := Except(e);
      var r := g.(links := Filter(g.links, other), linkAttrs := g.linkAttrs - {e});
      assert Valid(r) by {
        forall x | x in r.linkAttrs ensures x in r.links {
          FilterHas(g.links, other, x);
        }
      }
      Change(r, true)
  }

  /** One administrative mutation, as the graph routes forward them. */
  datatype Op =
    | AddNodeOp(id: NodeId, a: Attrs)
    | UpdateNodeOp(id: NodeId, a: Attrs)
    | DeleteNodeOp(id: NodeId)
    | AddEdgeOp(s: NodeId, t: NodeId, a: Attrs)
    | DeleteEdgeOp(s: NodeId, t: NodeId)

  function Apply(g: Graph, op: Op): Change
    requires Valid(g)
  {
    match op
    case AddNodeOp(id, a) => AddNode(g, id, a)
    case UpdateNodeOp(id, a) => UpdateNode(g, id, a)
    case DeleteNodeOp(id) => DeleteNode(g, id)
    case AddEdgeOp(s, t, a) => AddEdge(g, s, t, a)
    case DeleteEdgeOp(s, t) => DeleteEdge(g, s, t)
  }

  /** Any sequence of mutations, successful or not, keeps the invariant:
      every edge joins two existing nodes and no ordered pair repeats. */
  function ApplyAll(g: Graph, ops: seq<Op>): (r: Graph)
    requires Valid(g)
    ensures Valid(r)
    decreases |ops|
  {
    if |ops| == 0 then g else ApplyAll(Apply(g, ops[0]).graph, ops[1..])
  }

  /** networkx's edge enumeration: sources in node order, and the edges
      leaving one node in the order they were added. */
  function EdgeSeq(order: seq<NodeId>, links: seq<Edge>): (r: seq<Edge>)
    ensures forall i :: 0 <= i < |r| ==> r[i] in links && r[i].src in order
    ensures forall i :: 0 <= i < |links| && links[i].src in order ==> links[i] in r
    decreases |order|
  {
    if |order| == 0 then []
    else
      var n := order[0];
      var rest := EdgeSeq(order[1..], links);
      var here := Filter(links, From(n));
      assert forall i :: 0 <= i < |rest| ==> rest[i].src in order by {
        assert forall x :: x in order[1..] ==> x in order;
      }
      here + rest
  }

  /** The edge test "leaves `n`". */
  function From(n: NodeId): Edge -> bool {
    (e: Edge) => e.src == n
  }

  /** Each edge's source comes no later in `order` than the next edge's. */
  predicate SourcesInOrder(order: seq<NodeId>, r: seq<Edge>)
    requires forall i :: 0 <= i < |r| ==> r[i].src in order
  {
    forall i :: 0 <= i < |r| - 1 ==> IndexOf(order, r[i].src) <= IndexOf(order, r[i + 1].src)
  }

  /** The enumeration is grouped by source: sources appear in node order. */
  lemma {:induction false} EdgeSeqGrouped(order: seq<NodeId>, links: seq<Edge>)
    requires Distinct(order)
    ensures SourcesInOrder(order, EdgeSeq(order, links))
    decreases |order|
  {
    if |order| > 0 {
      var here := Filter(links, From(order[0]));
      var rest := EdgeSeq(order[1..], links);
      assert EdgeSeq(order, links) == here + rest;
      EdgeSeqGrouped(order[1..], links);
      GroupedCons(order, here, rest);
    }
  }

  /** Edges leaving the first node, followed by edges in order over the
      remaining nodes, are in order over all of them. */
  lemma GroupedCons(order: seq<NodeId>, here: seq<Edge>, rest: seq<Edge>)
    requires |order| > 0 && Distinct(order)
    requires forall i :: 0 <= i < |here| ==> From(order[0])(here[i])
    requires forall i :: 0 <= i < |rest| ==> rest[i].src in order[1..]
    requires SourcesInOrder(order[1..], rest)
    ensures forall i :: 0 <= i < |here + rest| ==> (here + rest)[i].src in order
    ensures SourcesInOrder(order, here + rest)
  {
    var r := here + rest;
    forall i | 0 <= i < |r| ensures r[i].src in order {
      if i >= |here| {
        assert r[i] == rest[i - |here|];
      }
    }
    forall i | 0 <= i < |r| - 1
      ensures IndexOf(order, r[i].src) <= IndexOf(order, r[i + 1].src)
    {
      if i < |here| {
        assert r[i] == here[i];
        assert IndexOf(order, r[i].src) == 0;
      } else {
        var k := i - |here|;
        assert r[i] == rest[k] && r[i + 1] == rest[k + 1];
        TailIndex(order, rest[k].src);
        TailIndex(order, rest[k + 1].src);
      }
    }
  }

  /** Past the head of a distinct sequence, positions shift by one. */
  lemma TailIndex<T>(s: seq<T>, x: T)
    requires |s| > 0 && Distinct(s) && x in s[1..]
    ensures IndexOf(s, x) == 1 + IndexOf(s[1..], x)
  {
    DistinctTail(s);
  }

  /** Within the enumeration, the edges leaving any one node are exactly
      that node's edges in the order they were added. */
  lemma {:induction false} EdgeSeqPerSource(order: seq<NodeId>, links: seq<Edge>, n: NodeId)
    requires Distinct(order) && n in order
    ensures Filter(EdgeSeq(order, links), From(n)) == Filter(links, From(n))
    decreases |order|
  {
    var m := order[0];
    var here := Filter(links, From(m));
    var rest := EdgeSeq(order[1..], links);
    assert EdgeSeq(order, links) == here + rest;
    FilterAppend(here, rest, From(n));
    DistinctTail(order);
    if n == m {
      FilterAll(here, From(n));
      forall i | 0 <= i < |rest| ensures !From(n)(rest[i]) {
        assert rest[i].src in order[1..];
      }
      FilterNone(rest, From(n));
    } else {
      FilterNone(here, From(n));
      EdgeSeqPerSource(order[1..], links, n);
    }
  }

  /** In a valid graph, the enumeration lists the edges leaving any `c`,
      node or not, in the order they were added. */
  lemma EdgesPerSource(g: Graph, c: NodeId)
    requires Valid(g)
    ensures Filter(Edges(g), From(c)) == Filter(g.links, From(c))
  {
    if c in g.attrs {
      EdgeSeqPerSource(g.order, g.links, c);
    } else {
      var es := Edges(g);
      forall i | 0 <= i < |es| ensures !From(c)(es[i]) {
        assert es[i] in g.linkAttrs;
      }
      forall i | 0 <= i < |g.links| ensures !From(c)(g.links[i]) {
        assert g.links[i] in g.linkAttrs;
      }
      FilterNone(es, From(c));
      FilterNone(g.links, From(c));
    }
  }

  /** The edges of a graph in networkx's enumeration order. */
  function Edges(g: Graph): (r: seq<Edge>)
    requires Valid(g)
    ensures forall e :: e in r <==> e in g.linkAttrs
  {
    var r := EdgeSeq(g.order, g.links);
    assert forall e :: e in g.linkAttrs ==> e in r by {
      forall e | e in g.linkAttrs ensures e in r {
        var i :| 0 <= i < |g.links| && g.links[i] == e;
      }
    }
    r
  }

  /** The `type` attribute of a node or edge, if it is a string. */
  function TypeOf(a: Attrs): (r: string)
    ensures r != "" ==> "type" in a && a["type"] == Text(r)
    ensures "type" in a && a["type"].Text? ==> r == a["type"].s
  {
    if "type" in a && a["type"].Text? then a["type"].s else ""
  }

  /** The concept nodes of the seeded graphs, and their satellites. */
  const ConceptIds: set<NodeId> := {"EBCT", "V", "Q", "D", "H"}
  const RiskIds: set<NodeId> := {"V_risk", "Q_risk"}
  const AdviceIds: set<NodeId> := {"V_advice", "Q_advice", "D_advice", "H_advice"}
  const SeedIds: set<NodeId> := ConceptIds + RiskIds + AdviceIds

  /** The prose of the seeded graphs (descriptions, rationales, advice for
      each role) is a parameter keyed by node id and attribute name. */
  type Prose = (NodeId, string) -> string

  function Explained(kind: string, id: NodeId, prose: Prose): Attrs {
    map["type" := Text(kind),
        "description" := Text(prose(id, "description")),
        "rationale" := Text(prose(id, "rationale"))]
  }

  function Advice(id: NodeId, prose: Prose): Attrs {
    map["type" := Text("advice"),
        "designer" := Text(prose(id, "designer")),
        "engineer" := Text(prose(id, "engineer"))]
  }

  /** The node ids of the seeded graphs, in insertion order. */
  const SeedOrder: seq<NodeId> :=
    ["EBCT", "V", "Q", "D", "H", "V_risk", "Q_risk",
     "V_advice", "Q_advice", "D_advice", "H_advice"]

  /** The edges of the seeded graphs, in insertion order. */
  const SeedLinks: seq<Edge> :=
    [Edge("V", "V_risk"), Edge("Q", "Q_risk"), Edge("V", "V_advice"),
     Edge("Q", "Q_advice"), Edge("D", "D_advice"), Edge("H", "H_advice")]

  /** Each seeded edge is `has_risk` when it leads to a risk node and
      `has_advice` otherwise. */
  const SeedLinkAttrs: map<Edge, Attrs> :=
    map e | e in SeedLinks :: map["type" := Text(if e.dst in RiskIds then "has_risk" else "has_advice")]

  /** The attributes of one seeded node: concepts carry aliases (and prose,
      except `D` and `H`), risks carry prose, advice carries one text per role. */
  function SeedNodeAttrs(n: NodeId, aliases: NodeId -> seq<string>, prose: Prose): Attrs {
    if n in {"EBCT", "V", "Q"} then Explained("concept", n, prose)["aliases" := Texts(aliases(n))]
    else if n in {"D", "H"} then map["type" := Text("concept"), "aliases" := Texts(aliases(n))]
    else if n in RiskIds then Explained("risk", n, prose)
    else Advice(n, prose)
  }

  function SeedAttrs(aliases: NodeId -> seq<string>, prose: Prose): map<NodeId, Attrs> {
    map n | n in SeedIds :: SeedNodeAttrs(n, aliases, prose)
  }

  /** The seeded graph shared by `create_default_knowledge_graph` and
      `create_knowledge_graph`, which differ only in prose and aliases; it
      satisfies the representation invariant. */
  function SeedGraph(aliases: NodeId -> seq<string>, prose: Prose): (g: Graph)
    ensures Valid(g)
  {
    SeedOrderListsSeedIds();
    SeedLinksWellFormed();
    SeedAttrsKeys(aliases, prose);
    Graph(SeedOrder, SeedAttrs(aliases, prose), SeedLinks, SeedLinkAttrs)
  }

  /** The aliases of `create_default_knowledge_graph`. */
  function DefaultAliases(id: NodeId): seq<string> {
    match id
    case "EBCT" => ["ebct", "empty bed contact time"]
    case "V" => ["v", "volume", "bed volume", "gal", "gallon"]
    case "Q" => ["q", "flow", "flow rate", "gpm", "l/min", "m3/h"]
    case "D" => ["d", "diameter", "ft", "in", "m"]
    case "H" => ["h", "height", "bed height"]
    case _ => []
  }

  /** `create_default_knowledge_graph`. */
  function DefaultGraph(prose: Prose): Graph {
    SeedGraph(DefaultAliases, prose)
  }

  /** The ids of the nodes whose `type` is `kind`. */
  function OfType(g: Graph, kind: string): set<NodeId> {
    set n | n in g.attrs && TypeOf(g.attrs[n]) == kind
  }

  lemma SeedOrderListsSeedIds()
    ensures Distinct(SeedOrder)
    ensures forall i :: 0 <= i < |SeedOrder| ==> SeedOrder[i] in SeedIds
    ensures forall n :: n in SeedIds ==> n in SeedOrder
  {
  }

  lemma SeedLinksWellFormed()
    ensures Distinct(SeedLinks)
    ensures forall i :: 0 <= i < |SeedLinks| ==> SeedLinks[i] in SeedLinkAttrs
    ensures forall e :: e in SeedLinkAttrs ==> e in SeedLinks
    ensures forall e :: e in SeedLinkAttrs ==> e.src in SeedIds && e.dst in SeedIds
  {
  }

  lemma SeedAttrsKeys(aliases: NodeId -> seq<string>, prose: Prose)
    ensures SeedAttrs(aliases, prose).Keys == SeedIds
  {
  }

  /** The `type` of each seeded node. */
  function SeedKind(n: NodeId): string {
    if n in ConceptIds then "concept" else if n in RiskIds then "risk" else "advice"
  }

  lemma SeedTypes(aliases: NodeId -> seq<string>, prose: Prose)
    ensures forall n :: n in SeedIds ==> TypeOf(SeedAttrs(aliases, prose)[n]) == SeedKind(n)
  {
    forall n | n in SeedIds ensures TypeOf(SeedAttrs(aliases, prose)[n]) == SeedKind(n) {
      SeedNodeType(n, aliases, prose);
    }
  }

  lemma SeedNodeType(n: NodeId, aliases: NodeId -> seq<string>, prose: Prose)
    requires n in SeedIds
    ensures TypeOf(SeedNodeAttrs(n, aliases, prose)) == SeedKind(n)
  {
    var a := SeedNodeAttrs(n, aliases, prose);
    if n in {"EBCT", "V", "Q"} {
      assert a["type"] == Text("concept");
    } else if n in {"D", "H"} {
      assert a["type"] == Text("concept");
    } else if n in RiskIds {
      assert a["type"] == Text("risk");
    } else {
      assert a["type"] == Text("advice");
    }
  }

  lemma SeedIdCounts()
    ensures |ConceptIds| == 5 && |RiskIds| == 2 && |AdviceIds| == 4
    ensures ConceptIds !! RiskIds && ConceptIds !! AdviceIds && RiskIds !! AdviceIds
  {
  }

  /** The nodes of each type in the seeded graph. */
  lemma SeedOfType(aliases: NodeId -> seq<string>, prose: Prose, kind: string)
    ensures OfType(SeedGraph(aliases, prose), kind) == set n | n in SeedIds && SeedKind(n) == kind
  {
    SeedAttrsKeys(aliases, prose);
    SeedTypes(aliases, prose);
  }

  lemma SeedKindSets()
    ensures (set n | n in SeedIds && SeedKind(n) == "concept") == ConceptIds
    ensures (set n | n in SeedIds && SeedKind(n) == "risk") == RiskIds
    ensures (set n | n in SeedIds && SeedKind(n) == "advice") == AdviceIds
  {
    SeedIdCounts();
  }

  /** The seeded graph has 5 concepts, 2 risks and 4 pieces of advice. */
  lemma SeedGraphNodeKinds(aliases: NodeId -> seq<string>, prose: Prose)
    ensures var g := SeedGraph(aliases, prose);
      && OfType(g, "concept") == ConceptIds && |ConceptIds| == 5
      && OfType(g, "risk") == RiskIds && |RiskIds| == 2
      && OfType(g, "advice") == AdviceIds && |AdviceIds| == 4
  {
    SeedIdCounts();
    SeedKindSets();
    SeedOfType(aliases, prose, "concept");
    SeedOfType(aliases, prose, "risk");
    SeedOfType(aliases, prose, "advice");
  }

  lemma SeedLinkCount()
    ensures |SeedLinkAttrs| == 6
  {
    SeedLinksWellFormed();
    DistinctCard(SeedLinks);
    assert SeedLinkAttrs.Keys == set e | e in SeedLinks;
  }

  /** The seeded graph's 6 edges each lead from a concept to a risk
      (`has_risk`) or to advice (`has_advice`). */
  lemma SeedGraphEdgeKinds(aliases: NodeId -> seq<string>, prose: Prose)
    ensures var g := SeedGraph(aliases, prose);
      && |g.linkAttrs| == 6
      && forall e :: e in g.linkAttrs ==>
           && e.src in ConceptIds
           && (|| (TypeOf(g.linkAttrs[e]) == "has_risk" && e.dst in RiskIds)
               || (TypeOf(g.linkAttrs[e]) == "has_advice" && e.dst in AdviceIds))
  {
    SeedLinkCount();
    forall e | e in SeedLinkAttrs
      ensures && e.src in ConceptIds
              && (|| (TypeOf(SeedLinkAttrs[e]) == "has_risk" && e.dst in RiskIds)
                  || (TypeOf(SeedLinkAttrs[e]) == "has_advice" && e.dst in AdviceIds))
    {
      SeedEdgeKind(e);
    }
  }

  lemma SeedEdgeKind(e: Edge)
    requires e in SeedLinks
    ensures e in SeedLinkAttrs && e.src in ConceptIds
    ensures || (TypeOf(SeedLinkAttrs[e]) == "has_risk" && e.dst in RiskIds)
            || (TypeOf(SeedLinkAttrs[e]) == "has_advice" && e.dst in AdviceIds)
  {
    var t := if e.dst in RiskIds then "has_risk" else "has_advice";
    assert SeedLinkAttrs[e] == map["type" := Text(t)];
    assert TypeOf(SeedLinkAttrs[e]) == t;
  }
}

=== FILE: knowledge.dfy ===
/** Read-only queries over the knowledge graph: exact alias lookup, the
    pattern-driven concept lookup, and the risk and advice lookups that
    follow `has_risk` and `has_advice` edges. The regular expressions of the
    concept lookup are abstracted as a matcher. */
module Knowledge {
  import opened Wrappers
  import opened Text
  import opened Seqs
  import opened GraphStore

  /** `data.get('aliases', [])`: a node's aliases; a node without a list of
      aliases has none. */
  function AliasList(a: Attrs): seq<string> {
    if "aliases" in a && a["aliases"].Texts? then a["aliases"].items else []
  }

  /** The node's alias list holds `alias` verbatim. */
  predicate HasAlias(a: Attrs, alias: string) {
    alias in AliasList(a)
  }

  /** `find_node_by_alias`: the first node, in insertion order, whose alias
      list contains the lower-cased argument as an element. */
  method FindNodeByAlias(g: Graph, alias: string) returns (r: Option<NodeId>)
    requires Valid(g)
    ensures r.None? <==> forall n :: n in g.attrs ==> !HasAlias(g.attrs[n], Lower(alias))
    ensures r.Some? ==>
      exists k :: 0 <= k < |g.order| && g.order[k] == r.value
        && HasAlias(g.attrs[r.value], Lower(alias))
        && forall j :: 0 <= j < k ==> !HasAlias(g.attrs[g.order[j]], Lower(alias))
  {
    var key := Lower(alias);
    var i := 0;
    while i < |g.order|
      invariant 0 <= i <= |g.order|
      invariant forall j :: 0 <= j < i ==> !HasAlias(g.attrs[g.order[j]], key)
    {
      var n := g.order[i];
      if HasAlias(g.attrs[n], key) {
        return Some(n);
      }
      i := i + 1;
    }
    forall n | n in g.attrs ensures !HasAlias(g.attrs[n], key) {
      var j :| 0 <= j < |g.order| && g.order[j] == n;
    }
    return None;
  }

  /** The pair `(description, rationale)` a lookup answers with; either half
      is `None` when the node lacks that attribute. */
  datatype Explanation = Explanation(description: Option<Value>, rationale: Option<Value>)

  function Explain(a: Attrs): Explanation {
    Explanation(
      if "description" in a then Some(a["description"]) else None,
      if "rationale" in a then Some(a["rationale"]) else None)
  }

  /** The regular expressions of `query_concept`, by what they look for. */
  datatype ConceptPattern =
    | BedVolumeMeaning   // "bed volume ... 뭐/무엇/뜻"
    | VolumeWordMeaning  // "볼륨/체적 뭐/뜻"
    | FlowWordMeaning    // "flow/유량 뭐/뜻"
    | EbctWordMeaning    // "ebct 뭐/뜻"
    | EbctWhat           // "what is ebct", "ebct가 뭐"
    | VolumeWhat         // "V/volume ... what"
    | FlowWhat           // "Q/flow ... what"

  /** Whether a pattern matches the (stripped, lower-cased) message. */
  type Matcher = (ConceptPattern, string) -> bool

  /** The patterns in the order they are tried, each with the node it
      answers from: the supplementary patterns first, then the base ones. */
  const Probes: seq<(ConceptPattern, NodeId)> := [
    (BedVolumeMeaning, "V"), (VolumeWordMeaning, "V"), (FlowWordMeaning, "Q"),
    (EbctWordMeaning, "EBCT"),
    (EbctWhat, "EBCT"), (VolumeWhat, "V"), (FlowWhat, "Q")]

  /** How many of `Probes` are the supplementary patterns. */
  const SupplementaryCount: nat := 4

  /** Probe `k` fires: its pattern matches and its node exists with type `concept`. */
  predicate Fires(g: Graph, m: Matcher, msg: string, k: nat)
    requires k < |Probes|
  {
    && m(Probes[k].0, msg)
    && Probes[k].1 in g.attrs
    && TypeOf(g.attrs[Probes[k].1]) == "concept"
  }

  /** The first probe at or after `k` that fires. */
  function FirstFiring(g: Graph, m: Matcher, msg: string, k: nat): (r: Option<nat>)
    requires k <= |Probes|
    ensures r.Some? ==>
      k <= r.value < |Probes| && Fires(g, m, msg, r.value)
        && forall j :: k <= j < r.value ==> !Fires(g, m, msg, j)
    ensures r.None? ==> forall j :: k <= j < |Probes| ==> !Fires(g, m, msg, j)
    decreases |Probes| - k
  {
    if k == |Probes| then None
    else if Fires(g, m, msg, k) then Some(k)
    else FirstFiring(g, m, msg, k + 1)
  }

  /** `query_concept`: the explanation held by the node of the first probe
      that fires on the stripped, lower-cased message. */
  function QueryConcept(g: Graph, m: Matcher, userMsg: string): (r: Option<Explanation>)
    ensures var msg := Lower(Strip(userMsg));
      && (r.None? <==> forall j :: 0 <= j < |Probes| ==> !Fires(g, m, msg, j))
      && (r.Some? ==>
            exists k :: 0 <= k < |Probes| && Fires(g, m, msg, k)
              && r.value == Explain(g.attrs[Probes[k].1])
              && forall j :: 0 <= j < k ==> !Fires(g, m, msg, j))
  {
    var msg := Lower(Strip(userMsg));
    match FirstFiring(g, m, msg, 0)
    case None => None
    case Some(k) => Some(Explain(g.attrs[Probes[k].1]))
  }

  /** When a supplementary pattern fires, the answer comes from a
      supplementary pattern: they are tried before the base ones. */
  lemma SupplementaryFirst(g: Graph, m: Matcher, userMsg: string, s: nat)
    requires s < SupplementaryCount && Fires(g, m, Lower(Strip(userMsg)), s)
    ensures
      exists k :: 0 <= k < SupplementaryCount && Fires(g, m, Lower(Strip(userMsg)), k)
        && QueryConcept(g, m, userMsg) == Some(Explain(g.attrs[Probes[k].1]))
  {
    var msg := Lower(Strip(userMsg));
    var r := QueryConcept(g, m, userMsg);
    var k :| 0 <= k < |Probes| && Fires(g, m, msg, k) && r.value == Explain(g.attrs[Probes[k].1])
      && forall j :: 0 <= j < k ==> !Fires(g, m, msg, j);
    assert k <= s;
  }

  /** Edge `e` leads from `c` by an edge typed `kind` to a node whose
      attribute map is not empty. */
  predicate Leads(g: Graph, e: Edge, c: NodeId, kind: string) {
    && e in g.linkAttrs
    && e.src == c
    && TypeOf(g.linkAttrs[e]) == kind
    && e.dst in g.attrs
    && g.attrs[e.dst] != map[]
  }

  /** The target of the first edge, from position `i` of the insertion order,
      that leads from `c` by a `kind` edge to a non-empty node. Among the
      edges leaving one node, insertion order is networkx's order. */
  function FirstTarget(g: Graph, c: NodeId, kind: string, i: nat): (r: Option<NodeId>)
    requires i <= |g.links|
    ensures r.Some? ==>
      exists k :: i <= k < |g.links| && g.links[k] == Edge(c, r.value)
        && Leads(g, g.links[k], c, kind)
        && forall j :: i <= j < k ==> !Leads(g, g.links[j], c, kind)
    ensures r.None? <==> forall j :: i <= j < |g.links| ==> !Leads(g, g.links[j], c, kind)
    decreases |g.links| - i
  {
    if i == |g.links| then None
    else if Leads(g, g.links[i], c, kind) then Some(g.links[i].dst)
    else FirstTarget(g, c, kind, i + 1)
  }

  /** The edge test "leads from `c` by a `kind` edge to a non-empty node". */
  function LeadsBy(g: Graph, c: NodeId, kind: string): Edge -> bool {
    e => Leads(g, e, c, kind)
  }

  /** The insertion-order scan of `FirstTarget` picks the first qualifying
      edge of the insertion order. */
  lemma FirstTargetFinds(g: Graph, c: NodeId, kind: string)
    ensures var i := FindFirst(g.links, LeadsBy(g, c, kind));
      FirstTarget(g, c, kind, 0) == if i < |g.links| then Some(g.links[i].dst) else None
  {
    var i := FindFirst(g.links, LeadsBy(g, c, kind));
    var r := FirstTarget(g, c, kind, 0);
    if r.Some? {
      var k :| 0 <= k < |g.links| && g.links[k] == Edge(c, r.value)
        && Leads(g, g.links[k], c, kind)
        && forall j :: 0 <= j < k ==> !Leads(g, g.links[j], c, kind);
      assert LeadsBy(g, c, kind)(g.links[k]);
      assert i == k;
    }
  }

  /** `FirstTarget` picks the first qualifying edge of networkx's edge
      enumeration, which the source walks: the edges leaving `c` come in
      the same order in both. */
  lemma FirstTargetEnumerated(g: Graph, c: NodeId, kind: string)
    requires Valid(g)
    ensures var es := Edges(g); var i := FindFirst(es, LeadsBy(g, c, kind));
      FirstTarget(g, c, kind, 0) == if i < |es| then Some(es[i].dst) else None
  {
    var p := LeadsBy(g, c, kind);
    var es := Edges(g);
    FirstTargetFinds(g, c, kind);
    EdgesPerSource(g, c);
    LeadsLeaves(g.links, g, c, kind);
    LeadsLeaves(es, g, c, kind);
    FindFirstSameFilter(g.links, es, p, From(c));
  }

  /** A qualifying edge leaves `c`. */
  lemma LeadsLeaves(s: seq<Edge>, g: Graph, c: NodeId, kind: string)
    ensures forall i :: 0 <= i < |s| && LeadsBy(g, c, kind)(s[i]) ==> From(c)(s[i])
  {
  }

  /** The words that make a message a question about risk. */
  const RiskWords: seq<string> := [
    "\U{BB38}\U{C81C}", "\U{B2E8}\U{C810}", "\U{B9AC}\U{C2A4}\U{D06C}",
    "risk", "issue", "disadvantage"]

  /** Some word of `words` occurs in `msg`. */
  predicate MentionsAny(msg: string, words: seq<string>) {
    exists k :: 0 <= k < |words| && Contains(msg, words[k])
  }

  /** The concept a risk question is about: `V` when one of its aliases
      occurs in the message, else `Q` when one of its aliases does.
      `Failure(id)` is the `KeyError` raised when the node it reads is missing. */
  function RiskConcept(g: Graph, msg: string): (r: Result<Option<NodeId>, NodeId>)
    ensures !MentionsAny(msg, RiskWords) ==> r == Success(None)
    ensures r.Failure? ==> r.error !in g.attrs
    ensures r == Success(Some("V")) <==>
      MentionsAny(msg, RiskWords) && "V" in g.attrs && MentionsAny(msg, AliasList(g.attrs["V"]))
    ensures r == Success(Some("Q")) <==>
      && MentionsAny(msg, RiskWords)
      && "V" in g.attrs && !MentionsAny(msg, AliasList(g.attrs["V"]))
      && "Q" in g.attrs && MentionsAny(msg, AliasList(g.attrs["Q"]))
    ensures r.Success? && r.value.Some? ==> r.value.value in {"V", "Q"}
    ensures MentionsAny(msg, RiskWords) && "V" !in g.attrs ==> r == Failure("V")
    ensures
      && MentionsAny(msg, RiskWords)
      && "V" in g.attrs && !MentionsAny(msg, AliasList(g.attrs["V"]))
      && "Q" !in g.attrs
      ==> r == Failure("Q")
    ensures r == Success(None) <==>
      || !MentionsAny(msg, RiskWords)
      || ("V" in g.attrs && !MentionsAny(msg, AliasList(g.attrs["V"]))
          && "Q" in g.attrs && !MentionsAny(msg, AliasList(g.attrs["Q"])))
  {
    if !MentionsAny(msg, RiskWords) then Success(None)
    else if "V" !in g.attrs then Failure("V")
    else if MentionsAny(msg, AliasList(g.attrs["V"])) then Success(Some("V"))
    else if "Q" !in g.attrs then Failure("Q")
    else if MentionsAny(msg, AliasList(g.attrs["Q"])) then Success(Some("Q"))
    else Success(None)
  }

  /** `query_risk`: the explanation held by the first non-empty `has_risk`
      successor of the concept the question is about. */
  function QueryRisk(g: Graph, userMsg: string): (r: Result<Option<Explanation>, NodeId>)
    ensures var c := RiskConcept(g, Lower(Strip(userMsg)));
      && (c.Failure? <==> r.Failure?)
      && (c.Failure? ==> r == Failure(c.error))
      && (c == Success(None) ==> r == Success(None))
      && ((c.Success? && c.value.Some? && FirstTarget(g, c.value.value, "has_risk", 0).None?)
            ==> r == Success(None))
      && (r.Success? && r.value.Some? ==>
            && c.Success? && c.value.Some?
            && exists v :: Leads(g, Edge(c.value.value, v), c.value.value, "has_risk")
                 && r.value.value == Explain(g.attrs[v]))
      && ((c.Success? && c.value.Some?
           && exists j :: 0 <= j < |g.links| && Leads(g, g.links[j], c.value.value, "has_risk"))
            ==> r.Success? && r.value.Some?)
      && ((c.Success? && c.value.Some? && FirstTarget(g, c.value.value, "has_risk", 0).Some?)
            ==> r == Success(Some(Explain(g.attrs[FirstTarget(g, c.value.value, "has_risk", 0).value]))))
  {
    match RiskConcept(g, Lower(Strip(userMsg)))
    case Failure(id) => Failure(id)
    case Success(None) => Success(None)
    case Success(Some(c)) =>
      match FirstTarget(g, c, "has_risk", 0)
      case None => Success(None)
      case Some(v) => Success(Some(Explain(g.attrs[v])))
  }

  /** The concept node a what-if target names, after lower-casing. */
  function AdviceConcept(target: string): (r: Option<NodeId>)
    ensures r.Some? <==> target in {"volume", "flow", "diameter", "height"}
    ensures target == "volume" ==> r == Some("V")
    ensures target == "flow" ==> r == Some("Q")
    ensures target == "diameter" ==> r == Some("D")
    ensures target == "height" ==> r == Some("H")
  {
    if target == "volume" then Some("V")
    else if target == "flow" then Some("Q")
    else if target == "diameter" then Some("D")
    else if target == "height" then Some("H")
    else None
  }

  /** `query_advice`: the role-keyed text of the advice node reached from the
      target's concept, or the empty string. */
  function QueryAdvice(g: Graph, target: string, role: string): (r: Value)
    ensures AdviceConcept(Lower(target)).None? ==> r == Text("")
    ensures r != Text("") ==> exists v ::
      && Leads(g, Edge(AdviceConcept(Lower(target)).value, v), AdviceConcept(Lower(target)).value, "has_advice")
      && Lower(role) in g.attrs[v] && r == g.attrs[v][Lower(role)]
    ensures
      (AdviceConcept(Lower(target)).Some?
       && FirstTarget(g, AdviceConcept(Lower(target)).value, "has_advice", 0).None?) ==> r == Text("")
    ensures
      (AdviceConcept(Lower(target)).Some?
       && FirstTarget(g, AdviceConcept(Lower(target)).value, "has_advice", 0).Some?) ==>
        var a := g.attrs[FirstTarget(g, AdviceConcept(Lower(target)).value, "has_advice", 0).value];
        r == (if Lower(role) in a then a[Lower(role)] else Text(""))
  {
    match AdviceConcept(Lower(target))
    case None => Text("")
    case Some(c) =>
      match FirstTarget(g, c, "has_advice", 0)
      case None => Text("")
      case Some(v) =>
        var a := g.attrs[v];
        if Lower(role) in a then a[Lower(role)] else Text("")
  }

  /** The aliases of `create_knowledge_graph`, which add Korean words. */
  function KoreanAliases(id: NodeId): seq<string> {
    match id
    case "EBCT" => ["ebct", "empty bed contact time"]
    case "V" => ["v", "volume", "bed volume", "\U{BCFC}\U{B968}", "\U{CCB4}\U{C801}"]
    case "Q" => ["q", "flow", "flow rate", "\U{C720}\U{B7C9}"]
    case "D" => ["d", "diameter", "\U{C9C0}\U{B984}"]
    case "H" => ["h", "height", "bed height", "\U{B192}\U{C774}"]
    case _ => []
  }

  /** `create_knowledge_graph`. */
  function KnowledgeGraph(prose: Prose): Graph {
    SeedGraph(KoreanAliases, prose)
  }

  /** The graph `create_knowledge_graph` builds is valid, with the same 5
      concepts, 2 risks, 4 pieces of advice and 6 typed edges as the default. */
  lemma KnowledgeGraphShape(prose: Prose)
    ensures var g := KnowledgeGraph(prose);
      && Valid(g)
      && OfType(g, "concept") == ConceptIds
      && OfType(g, "risk") == RiskIds
      && OfType(g, "advice") == AdviceIds
      && |g.linkAttrs| == 6
  {
    SeedGraphNodeKinds(KoreanAliases, prose);
    SeedGraphEdgeKinds(KoreanAliases, prose);
  }
}

=== FILE: rag.dfy ===
/** Retrieval-augmented answering: alias-substring retrieval of a one-hop
    neighbourhood, the size-bounded rendering of that subgraph as a prompt
    context, the three-attempt generation loop and the chain that joins them.
    The language model is a given function from prompt and attempt number to
    an outcome. */
module RagChain {
  import opened Wrappers
  import opened Seqs
  import opened Text
  import opened GraphStore
  import Knowledge

  /** Some alias of the node, lower-cased, occurs in the lower-cased query. */
  predicate AliasHit(a: Attrs, q: string) {
    var al := Knowledge.AliasList(a);
    exists k :: 0 <= k < |al| && Contains(q, Lower(al[k]))
  }

  /** The nodes some alias of which occurs in `q`. */
  function Matched(g: Graph, q: string): set<NodeId> {
    set n | n in g.attrs && AliasHit(g.attrs[n], q)
  }

  /** `seeds` with their direct successors and predecessors. */
  function OneHop(g: Graph, seeds: set<NodeId>): set<NodeId> {
    seeds
    + (set e | e in g.linkAttrs && e.src in seeds :: e.dst)
    + (set e | e in g.linkAttrs && e.dst in seeds :: e.src)
  }

  /** `n` is one edge, in either direction, away from a matched node. */
  predicate NextToMatch(g: Graph, q: string, n: NodeId) {
    exists m :: m in Matched(g, q) && (Edge(m, n) in g.linkAttrs || Edge(n, m) in g.linkAttrs)
  }

  /** With no matched node, no node's alias occurs in `q`. */
  lemma NoneMatched(g: Graph, q: string)
    requires Matched(g, q) == {}
    ensures forall n :: n in g.attrs ==> !AliasHit(g.attrs[n], q)
  {
    forall n | n in g.attrs ensures !AliasHit(g.attrs[n], q) {
      assert n !in Matched(g, q);
    }
  }

  /** The one-hop set of the matched nodes is exactly the matched nodes
      and the nodes next to them. */
  lemma OneHopOfMatched(g: Graph, q: string)
    ensures forall n :: n in OneHop(g, Matched(g, q)) <==> n in Matched(g, q) || NextToMatch(g, q, n)
  {
    var hits := Matched(g, q);
    forall n ensures n in OneHop(g, hits) <==> n in hits || NextToMatch(g, q, n) {
      if n in OneHop(g, hits) && n !in hits {
        if e :| e in g.linkAttrs && e.src in hits && e.dst == n {
          assert Edge(e.src, n) == e;
        } else {
          var e :| e in g.linkAttrs && e.dst in hits && e.src == n;
          assert Edge(n, e.dst) == e;
        }
      }
      if NextToMatch(g, q, n) {
        var m :| m in hits && (Edge(m, n) in g.linkAttrs || Edge(n, m) in g.linkAttrs);
        if Edge(m, n) in g.linkAttrs {
          assert Edge(m, n).dst == n;
        } else {
          assert Edge(n, m).src == n;
        }
      }
    }
  }

  /** `retrieve`: `None` when no node's alias occurs in the lower-cased
      query; otherwise the subgraph induced by the matched nodes and their
      direct neighbours. */
  function Retrieve(g: Graph, query: string): (r: Option<Graph>)
    requires Valid(g)
    ensures r.None? <==> forall n :: n in g.attrs ==> !AliasHit(g.attrs[n], Lower(query))
    ensures r.Some? ==> Valid(r.value) && |r.value.order| > 0
    ensures r.Some? ==> forall n :: n in r.value.attrs <==>
      n in g.attrs && (AliasHit(g.attrs[n], Lower(query)) || NextToMatch(g, Lower(query), n))
    ensures r.Some? ==> forall n :: n in r.value.attrs ==> r.value.attrs[n] == g.attrs[n]
    ensures r.Some? ==> forall e :: e in r.value.linkAttrs <==>
      e in g.linkAttrs && e.src in r.value.attrs && e.dst in r.value.attrs
  {
    var q := Lower(query);
    var hits := Matched(g, q);
    if hits == {} then
      NoneMatched(g, q);
      None
    else
      var sub := Induced(g, OneHop(g, hits));
      OneHopOfMatched(g, q);
      var h :| h in hits;
      assert h in sub.attrs && h in sub.order;
      Some(sub)
  }

  /** A node whose alias occurs in the query is retrieved together with
      the nodes it leads to. */
  lemma RetrieveFinds(g: Graph, query: string, m: NodeId, n: NodeId)
    requires Valid(g) && m in g.attrs && AliasHit(g.attrs[m], Lower(query))
    requires Edge(m, n) in g.linkAttrs
    ensures var r := Retrieve(g, query);
      r.Some? && m in r.value.attrs && n in r.value.attrs
  {
    assert m in Matched(g, Lower(query));
    assert NextToMatch(g, Lower(query), n);
  }

  /** `str(v)` of an attribute value; a list renders as Python displays it
      (quotes inside items are not escaped). */
  function Render(v: Value): string {
    match v
    case Text(s) => s
    case Texts(items) => "[" + Join(Quoted(items), ", ") + "]"
  }

  function Quoted(items: seq<string>): (r: seq<string>)
    ensures |r| == |items|
  {
    if |items| == 0 then [] else ["'" + items[0] + "'"] + Quoted(items[1..])
  }

  /** Python truthiness of an attribute value: not empty. */
  predicate Truthy(v: Value) {
    match v
    case Text(s) => s != ""
    case Texts(items) => items != []
  }

  /** The attributes a node block may show, with their labels, in order. */
  const Fields: seq<(string, string)> := [
    ("description", "Description"), ("rationale", "Rationale"),
    ("designer", "Advice for Designers"), ("engineer", "Advice for Engineers")]

  /** Field `j` of `a` is present with a non-empty value. */
  predicate Shown(a: Attrs, j: nat)
    requires j < |Fields|
  {
    Fields[j].0 in a && Truthy(a[Fields[j].0])
  }

  function FieldLine(a: Attrs, j: nat): string
    requires j < |Fields| && Shown(a, j)
  {
    "  - " + Fields[j].1 + ": " + Render(a[Fields[j].0])
  }

  /** The lines field `k` onwards may contribute: one per shown field. */
  function ShownLines(a: Attrs, k: nat): set<string> {
    set j | k <= j < |Fields| && Shown(a, j) :: FieldLine(a, j)
  }

  /** The positions, from field `k` on, of the fields with a non-empty
      value: each once, in field order. */
  function ShownFields(a: Attrs, k: nat): (js: seq<nat>)
    requires k <= |Fields|
    ensures forall i :: 0 <= i < |js| ==> k <= js[i] < |Fields| && Shown(a, js[i])
    ensures forall i, i' :: 0 <= i < i' < |js| ==> js[i] < js[i']
    ensures forall j :: k <= j < |Fields| && Shown(a, j) ==> j in js
    decreases |Fields| - k
  {
    if k == |Fields| then []
    else if Shown(a, k) then [k] + ShownFields(a, k + 1)
    else ShownFields(a, k + 1)
  }

  /** The field lines of a node, from field `k` on: one line for each
      field with a non-empty value, in field order, and no other line. */
  function FieldLines(a: Attrs, k: nat): (r: seq<string>)
    requires k <= |Fields|
    ensures |r| <= |Fields| - k
    ensures forall i :: 0 <= i < |r| ==> r[i] in ShownLines(a, k)
    ensures forall j :: k <= j < |Fields| && Shown(a, j) ==> FieldLine(a, j) in r
    decreases |Fields| - k
  {
    if k == |Fields| then []
    else
      var rest := FieldLines(a, k + 1);
      assert ShownLines(a, k + 1) <= ShownLines(a, k);
      if Shown(a, k) then [FieldLine(a, k)] + rest else rest
  }

  /** The lines of fields `js`, in that order. */
  function LinesOf(a: Attrs, js: seq<nat>): (r: seq<string>)
    requires forall i :: 0 <= i < |js| ==> js[i] < |Fields| && Shown(a, js[i])
    ensures |r| == |js|
    ensures forall i :: 0 <= i < |js| ==> r[i] == FieldLine(a, js[i])
  {
    if |js| == 0 then [] else [FieldLine(a, js[0])] + LinesOf(a, js[1..])
  }

  /** The field lines are the lines of the shown fields, each once, in
      field order. */
  lemma {:induction false} FieldLinesInOrder(a: Attrs, k: nat)
    requires k <= |Fields|
    ensures FieldLines(a, k) == LinesOf(a, ShownFields(a, k))
    decreases |Fields| - k
  {
    if k < |Fields| {
      FieldLinesInOrder(a, k + 1);
      if Shown(a, k) {
        assert ([k] + ShownFields(a, k + 1))[1..] == ShownFields(a, k + 1);
      }
    }
  }

  /** The heading line of a node block. */
  function NodeHeading(n: NodeId, a: Attrs): string {
    "\n- Node '" + n + "' (Type: " + (if "type" in a then Render(a["type"]) else "N/A") + "):"
  }

  /** The lines of the blocks of nodes `ns`, in order. */
  function NodeBlocks(g: Graph, ns: seq<NodeId>): seq<string>
    requires forall i :: 0 <= i < |ns| ==> ns[i] in g.attrs
  {
    if |ns| == 0 then []
    else [NodeHeading(ns[0], g.attrs[ns[0]])] + FieldLines(g.attrs[ns[0]], 0) + NodeBlocks(g, ns[1..])
  }

  function EdgeLine(g: Graph, e: Edge): string
    requires e in g.linkAttrs
  {
    var d := g.linkAttrs[e];
    "- '" + e.src + "' " + (if "type" in d then Render(d["type"]) else "related to") + " '" + e.dst + "'"
  }

  function EdgeLines(g: Graph, es: seq<Edge>): (r: seq<string>)
    requires forall i :: 0 <= i < |es| ==> es[i] in g.linkAttrs
    ensures |r| == |es|
  {
    if |es| == 0 then [] else [EdgeLine(g, es[0])] + EdgeLines(g, es[1..])
  }

  /** What a rendering shows: the first nodes and the edges among them. */
  datatype Layout = Layout(nodes: seq<NodeId>, edges: seq<Edge>)

  /** The edges of `g` between nodes of `keep`, in edge order. */
  function EdgesWithin(g: Graph, keep: set<NodeId>): (r: seq<Edge>)
    requires Valid(g)
    ensures forall i :: 0 <= i < |r| ==> r[i] in g.linkAttrs && r[i].src in keep && r[i].dst in keep
    ensures forall e :: e in g.linkAttrs && e.src in keep && e.dst in keep ==> e in r
  {
    var all := Edges(g);
    var r := Filter(all, Within(keep));
    forall e | e in g.linkAttrs && e.src in keep && e.dst in keep ensures e in r {
      var i :| 0 <= i < |all| && all[i] == e;
      assert Within(keep)(all[i]);
    }
    r
  }

  /** The nodes and edges `format_subgraph_for_prompt` renders: at most
      `maxNodes` nodes, a prefix of the node order, and at most `maxEdges`
      edges, each between two rendered nodes, missing none of those unless
      the edge cap is reached. */
  function Select(g: Graph, maxNodes: nat, maxEdges: nat): (l: Layout)
    requires Valid(g)
    ensures |l.nodes| <= maxNodes && l.nodes <= g.order
    ensures |l.nodes| == maxNodes || l.nodes == g.order
    ensures forall i :: 0 <= i < |l.nodes| ==> l.nodes[i] in g.attrs
    ensures |l.edges| <= maxEdges
    ensures forall i :: 0 <= i < |l.edges| ==>
      l.edges[i] in g.linkAttrs && l.edges[i].src in l.nodes && l.edges[i].dst in l.nodes
    ensures |l.edges| < maxEdges ==>
      forall e :: e in g.linkAttrs && e.src in l.nodes && e.dst in l.nodes ==> e in l.edges
    ensures l.edges <= Filter(Edges(g), Within(set n | n in l.nodes))
    ensures |l.edges| == maxEdges || l.edges == Filter(Edges(g), Within(set n | n in l.nodes))
  {
    var nodes := SelectNodes(g, maxNodes);
    Layout(nodes, SelectEdges(g, nodes, maxEdges))
  }

  /** The first `maxNodes` nodes in node order. */
  function SelectNodes(g: Graph, maxNodes: nat): (nodes: seq<NodeId>)
    requires Valid(g)
    ensures |nodes| <= maxNodes && nodes <= g.order
    ensures |nodes| == maxNodes || nodes == g.order
    ensures forall i :: 0 <= i < |nodes| ==> nodes[i] in g.attrs
  {
    var nodes := Take(g.order, maxNodes);
    forall i | 0 <= i < |nodes| ensures nodes[i] in g.attrs {
      assert nodes[i] == g.order[i];
    }
    nodes
  }

  /** The first `maxEdges` edges, in enumeration order, between `nodes`. */
  function SelectEdges(g: Graph, nodes: seq<NodeId>, maxEdges: nat): (edges: seq<Edge>)
    requires Valid(g)
    ensures |edges| <= maxEdges
    ensures forall i :: 0 <= i < |edges| ==>
      edges[i] in g.linkAttrs && edges[i].src in nodes && edges[i].dst in nodes
    ensures |edges| < maxEdges ==>
      forall e :: e in g.linkAttrs && e.src in nodes && e.dst in nodes ==> e in edges
    ensures edges <= Filter(Edges(g), Within(set n | n in nodes))
    ensures |edges| == maxEdges || edges == Filter(Edges(g), Within(set n | n in nodes))
  {
    var keep := set n | n in nodes;
    var eligible := EdgesWithin(g, keep);
    var edges := Take(eligible, maxEdges);
    forall i | 0 <= i < |edges|
      ensures edges[i] in g.linkAttrs && edges[i].src in nodes && edges[i].dst in nodes
    {
      assert edges[i] == eligible[i];
    }
    edges
  }

  const Header: string := "Here is the relevant information from the knowledge graph:"

  /** The lines of a full rendering, before joining and truncation. */
  function Lines(g: Graph, l: Layout): (r: seq<string>)
    requires forall i :: 0 <= i < |l.nodes| ==> l.nodes[i] in g.attrs
    requires forall i :: 0 <= i < |l.edges| ==> l.edges[i] in g.linkAttrs
    ensures |r| > 0 && r[0] == Header
  {
    [Header]
    + NodeBlocks(g, l.nodes)
    + ["\nRelationships:"]
    + EdgeLines(g, l.edges)
  }

  const NoInfo: string := "No relevant information found in the knowledge graph."

  /** Python falsiness of a subgraph: none at all, or no nodes. */
  predicate Blank(sub: Option<Graph>) {
    sub.None? || |sub.value.order| == 0
  }

  /** `format_subgraph_for_prompt`: the fixed notice for a blank subgraph;
      otherwise the rendering of `Select`, cut to `maxChars` characters. */
  function Format(sub: Option<Graph>, maxNodes: nat, maxEdges: nat, maxChars: nat): (r: string)
    requires sub.Some? ==> Valid(sub.value)
    ensures Blank(sub) ==> r == NoInfo
    ensures !Blank(sub) ==> |r| <= maxChars
    ensures !Blank(sub) ==>
      var g := sub.value;
      var l := Select(g, maxNodes, maxEdges);
      var full := Join(Lines(g, l), "\n");
      r <= full && (|r| == maxChars || r == full)
  {
    if Blank(sub) then NoInfo
    else
      var g := sub.value;
      var l := Select(g, maxNodes, maxEdges);
      Take(Join(Lines(g, l), "\n"), maxChars)
  }

  /** The caps `execute_rag_chain` formats with. */
  const MaxNodes: nat := 12
  const MaxEdges: nat := 24
  const MaxChars: nat := 4000

  /** One call of the language model: it failed (raised), or it replied. */
  datatype Attempt = Fail | Reply(text: string)

  /** No model configured, or a model given as its outcome for each prompt
      and attempt number. */
  datatype Generator = NotConfigured | Model(call: (seq<string>, nat) -> Attempt)

  /** The text returned, the number of model calls made, and whether a reply
      was accepted. */
  datatype Generation = Generation(text: string, attempts: nat, answered: bool)

  const MaxAttempts: nat := 3
  const Unconfigured: string := "Model is not configured."
  const Apology: string := "I couldn\U{2019}t generate an answer right now. Please try again in a moment."
  const SystemPrompt: string :=
    "You are a concise assistant for water treatment (EBCT, PFAS). "
    + "Answer ONLY from the provided graph context. If not found, say so. English only."

  function UserPrompt(query: string, context: string): string {
    "--- CONTEXT ---\n" + context + "\n\n--- QUESTION ---\n" + query + "\n\nAnswer succinctly."
  }

  /** A reply is accepted when it is not blank; a blank one counts as a failure. */
  predicate Usable(a: Attempt) {
    a.Reply? && Strip(a.text) != ""
  }

  /** The retry loop from attempt `i` on: the first usable reply, stripped,
      or the apology once all three attempts have failed. */
  function TryFrom(call: (seq<string>, nat) -> Attempt, prompt: seq<string>, i: nat): (r: Generation)
    requires i <= MaxAttempts
    ensures r.answered ==>
      && i < r.attempts <= MaxAttempts
      && Usable(call(prompt, r.attempts - 1))
      && r.text == Strip(call(prompt, r.attempts - 1).text)
      && forall k :: i <= k < r.attempts - 1 ==> !Usable(call(prompt, k))
    ensures !r.answered ==>
      && r == Generation(Apology, MaxAttempts, false)
      && forall k :: i <= k < MaxAttempts ==> !Usable(call(prompt, k))
    decreases MaxAttempts - i
  {
    if i == MaxAttempts then Generation(Apology, MaxAttempts, false)
    else
      var a := call(prompt, i);
      if Usable(a) then Generation(Strip(a.text), i + 1, true)
      else TryFrom(call, prompt, i + 1)
  }

  /** `generate_response`. */
  function GenerateResponse(query: string, context: string, gen: Generator): (r: Generation)
    ensures gen.NotConfigured? ==> r == Generation(Unconfigured, 0, false)
    ensures gen.Model? && r.answered ==>
      var prompt := [SystemPrompt, UserPrompt(query, context)];
      && 1 <= r.attempts <= MaxAttempts
      && Usable(gen.call(prompt, r.attempts - 1))
      && r.text == Strip(gen.call(prompt, r.attempts - 1).text)
      && Strip(r.text) == r.text != ""
      && forall k :: 0 <= k < r.attempts - 1 ==> !Usable(gen.call(prompt, k))
    ensures gen.Model? && !r.answered ==>
      var prompt := [SystemPrompt, UserPrompt(query, context)];
      && r == Generation(Apology, MaxAttempts, false)
      && forall k :: 0 <= k < MaxAttempts ==> !Usable(gen.call(prompt, k))
  {
    match gen
    case NotConfigured => Generation(Unconfigured, 0, false)
    case Model(call) =>
      var prompt := [SystemPrompt, UserPrompt(query, context)];
      var r := TryFrom(call, prompt, 0);
      if r.answered then StripIdempotent(call(prompt, r.attempts - 1).text); r else r
  }

  /** A model that always fails is called exactly three times and yields the apology. */
  lemma AlwaysFailingModel(query: string, context: string)
    ensures GenerateResponse(query, context, Model((p, k) => Fail))
      == Generation(Apology, MaxAttempts, false)
  {
  }

  /** A blank first reply is retried, and a usable second reply is taken
      after exactly two calls. */
  lemma BlankReplyRetried(query: string, context: string, call: (seq<string>, nat) -> Attempt)
    requires var prompt := [SystemPrompt, UserPrompt(query, context)];
      call(prompt, 0) == Reply("") && Usable(call(prompt, 1))
    ensures var prompt := [SystemPrompt, UserPrompt(query, context)];
      GenerateResponse(query, context, Model(call))
        == Generation(Strip(call(prompt, 1).text), 2, true)
  {
    var prompt := [SystemPrompt, UserPrompt(query, context)];
    assert !Usable(call(prompt, 0)) by {
      StripTrims("");
    }
  }

  /** A formatted context opens with the whole header, so it is never the
      (shorter) rationale of the no-match answer. */
  lemma ContextIsNotNoMatch(sub: Option<Graph>)
    requires sub.Some? && Valid(sub.value) && !Blank(sub)
    ensures Header <= Format(sub, MaxNodes, MaxEdges, MaxChars)
    ensures Format(sub, MaxNodes, MaxEdges, MaxChars) != NoMatchRationale
  {
    var g := sub.value;
    var lines := Lines(g, Select(g, MaxNodes, MaxEdges));
    JoinStarts(lines, "\n");
    TakeKeeps(Join(lines, "\n"), Header, MaxChars);
    assert |Header| > |NoMatchRationale|;
  }

  /** Cutting a text to `n` characters keeps an opening of at most `n`. */
  lemma TakeKeeps(full: string, h: string, n: nat)
    requires h <= full && |h| <= n
    ensures h <= Take(full, n)
  {
  }

  /** The reply and rationale of the retrieval path. */
  datatype RagAnswer = RagAnswer(reply: string, rationale: string)

  const NoMatchReply: string :=
    "I couldn't find any relevant information for that. Could you try asking about 'EBCT', 'volume', or 'flow'?"
  const NoMatchRationale: string := "No relevant nodes found in knowledge graph."

  /** `execute_rag_chain`: a fixed answer when nothing is retrieved;
      otherwise the formatted context as rationale and the generator's
      text as reply. */
  function ExecuteRagChain(g: Graph, query: string, gen: Generator): (r: RagAnswer)
    requires Valid(g)
    ensures (forall n :: n in g.attrs ==> !AliasHit(g.attrs[n], Lower(query))) <==>
      r == RagAnswer(NoMatchReply, NoMatchRationale)
    ensures Retrieve(g, query).Some? ==>
      && r.rationale == Format(Retrieve(g, query), MaxNodes, MaxEdges, MaxChars)
      && |r.rationale| <= MaxChars && Header <= r.rationale
      && r.reply == GenerateResponse(query, r.rationale, gen).text
  {
    var sub := Retrieve(g, query);
    if Blank(sub) then RagAnswer(NoMatchReply, NoMatchRationale)
    else
      var context := Format(sub, MaxNodes, MaxEdges, MaxChars);
      ContextIsNotNoMatch(sub);
      RagAnswer(GenerateResponse(query, context, gen).text, context)
  }
}

=== FILE: seqs.dfy ===
/** Sequence helpers: distinctness, order-preserving filtering, Python-style
    prefix slicing and joining with a separator. */
module Seqs {

  /** No element occurs twice. */
  predicate Distinct<T(==)>(s: seq<T>) {
    forall i, j :: 0 <= i < j < |s| ==> s[i] != s[j]
  }

  /** The elements of `s` satisfying `p`, in their original order. */
  function Filter<T>(s: seq<T>, p: T -> bool): (r: seq<T>)
    ensures |r| <= |s|
    ensures forall i :: 0 <= i < |r| ==> r[i] in s && p(r[i])
    ensures forall i :: 0 <= i < |s| && p(s[i]) ==> s[i] in r
    ensures Distinct(s) ==> Distinct(r)
    decreases |s|
  {
    if |s| == 0 then []
    else
      var rest := Filter(s[1..], p);
      if p(s[0]) then
        PrependDistinct(s[0], rest);
        [s[0]] + rest
      else rest
  }

  /** The predicate "differs from `x`". */
  function Except<T(==)>(x: T): T -> bool {
    y => y != x
  }

  /** Filtering with two predicates that agree on every element gives the
      same sequence. */
  lemma {:induction false} FilterSame<T>(s: seq<T>, p: T -> bool, q: T -> bool)
    requires forall i :: 0 <= i < |s| ==> p(s[i]) == q(s[i])
    ensures Filter(s, p) == Filter(s, q)
    decreases |s|
  {
    if |s| > 0 {
      FilterSame(s[1..], p, q);
    }
  }

  /** Filtering a concatenation filters each part. */
  lemma {:induction false} FilterAppend<T>(s: seq<T>, t: seq<T>, p: T -> bool)
    ensures Filter(s + t, p) == Filter(s, p) + Filter(t, p)
    decreases |s|
  {
    if |s| > 0 {
      assert (s + t)[1..] == s[1..] + t;
      FilterAppend(s[1..], t, p);
    } else {
      assert s + t == t;
    }
  }

  /** Filtering keeps a sequence whose elements all pass. */
  lemma {:induction false} FilterAll<T>(s: seq<T>, p: T -> bool)
    requires forall i :: 0 <= i < |s| ==> p(s[i])
    ensures Filter(s, p) == s
    decreases |s|
  {
    if |s| > 0 {
      FilterAll(s[1..], p);
    }
  }

  /** Filtering empties a sequence none of whose elements passes. */
  lemma {:induction false} FilterNone<T>(s: seq<T>, p: T -> bool)
    requires forall i :: 0 <= i < |s| ==> !p(s[i])
    ensures Filter(s, p) == []
    decreases |s|
  {
    if |s| > 0 {
      FilterNone(s[1..], p);
    }
  }

  /** The position of the first element of `s` that passes `p`, or `|s|`
      when none does. */
  function FindFirst<T>(s: seq<T>, p: T -> bool): (i: nat)
    ensures i <= |s|
    ensures i < |s| ==> p(s[i])
    ensures forall j :: 0 <= j < i ==> !p(s[j])
    decreases |s|
  {
    if |s| == 0 then 0
    else if p(s[0]) then 0
    else 1 + FindFirst(s[1..], p)
  }

  /** Filtering with a test that every element passing `p` also passes
      leaves the first element passing `p` the same. */
  lemma {:induction false} FindFirstFilter<T>(s: seq<T>, p: T -> bool, q: T -> bool)
    requires forall i :: 0 <= i < |s| && p(s[i]) ==> q(s[i])
    ensures var f := Filter(s, q);
      && (FindFirst(s, p) < |s| <==> FindFirst(f, p) < |f|)
      && (FindFirst(s, p) < |s| ==> s[FindFirst(s, p)] == f[FindFirst(f, p)])
    decreases |s|
  {
    if |s| > 0 {
      FindFirstFilter(s[1..], p, q);
    }
  }

  /** Two sequences with the same `q`-elements in the same order have the
      same first element passing `p`, when everything passing `p` passes `q`. */
  lemma FindFirstSameFilter<T>(s: seq<T>, t: seq<T>, p: T -> bool, q: T -> bool)
    requires forall i :: 0 <= i < |s| && p(s[i]) ==> q(s[i])
    requires forall i :: 0 <= i < |t| && p(t[i]) ==> q(t[i])
    requires Filter(s, q) == Filter(t, q)
    ensures FindFirst(s, p) < |s| <==> FindFirst(t, p) < |t|
    ensures FindFirst(s, p) < |s| ==> s[FindFirst(s, p)] == t[FindFirst(t, p)]
  {
    FindFirstFilter(s, p, q);
    FindFirstFilter(t, p, q);
  }

  /** The position of the first occurrence of `x` in `s`. */
  function IndexOf<T(==)>(s: seq<T>, x: T): (i: nat)
    requires x in s
    ensures i < |s| && s[i] == x
    ensures forall k :: 0 <= k < i ==> s[k] != x
    decreases |s|
  {
    if s[0] == x then 0 else 1 + IndexOf(s[1..], x)
  }

  /** The tail of a distinct sequence is distinct and lacks the head. */
  lemma DistinctTail<T>(s: seq<T>)
    requires |s| > 0 && Distinct(s)
    ensures Distinct(s[1..]) && s[0] !in s[1..]
  {
    var t := s[1..];
    forall i, j | 0 <= i < j < |t| ensures t[i] != t[j] {
      assert t[i] == s[i + 1] && t[j] == s[j + 1];
    }
    forall k | 0 <= k < |t| ensures t[k] != s[0] {
      assert t[k] == s[k + 1];
    }
  }

  /** Putting a fresh element in front of a distinct sequence keeps it distinct. */
  lemma PrependDistinct<T>(x: T, s: seq<T>)
    ensures x !in s && Distinct(s) ==> Distinct([x] + s)
  {
    if x !in s && Distinct(s) {
      var t := [x] + s;
      forall i, j | 0 <= i < j < |t| ensures t[i] != t[j] {
        if i == 0 {
          assert t[j] == s[j - 1];
        } else {
          assert t[i] == s[i - 1] && t[j] == s[j - 1];
        }
      }
    }
  }

  /** A sequence without repetitions has as many distinct elements as it is long. */
  lemma {:induction false} DistinctCard<T>(s: seq<T>)
    requires Distinct(s)
    ensures |set x | x in s| == |s|
    decreases |s|
  {
    if |s| > 0 {
      var rest := s[1..];
      assert Distinct(rest) by {
        forall i, j | 0 <= i < j < |rest| ensures rest[i] != rest[j] {
          assert rest[i] == s[i + 1] && rest[j] == s[j + 1];
        }
      }
      DistinctCard(rest);
      assert (set x | x in s) == {s[0]} + (set x | x in rest);
      assert s[0] !in (set x | x in rest);
    }
  }

  /** Python's `s[:n]` for a non-negative `n`. */
  function Take<T>(s: seq<T>, n: nat): (r: seq<T>)
    ensures |r| <= n && |r| <= |s|
    ensures |r| == n || r == s
    ensures r <= s
  {
    if n < |s| then s[..n] else s
  }

  /** Python's `sep.join(parts)`. */
  function Join(parts: seq<string>, sep: string): string
    decreases |parts|
  {
    if |parts| == 0 then ""
    else if |parts| == 1 then parts[0]
    else parts[0] + sep + Join(parts[1..], sep)
  }

  /** A joined text opens with its first part. */
  lemma JoinStarts(parts: seq<string>, sep: string)
    requires |parts| > 0
    ensures parts[0] <= Join(parts, sep)
  {
    if |parts| > 1 {
      assert Join(parts, sep) == parts[0] + (sep + Join(parts[1..], sep));
    }
  }
}

=== FILE: text.dfy ===
/** The few Python string operations the core relies on: `str.lower`,
    `str.strip` and the substring test `needle in hay`. */
module Text {

  /** Python's `str.isspace` for a single character. */
  predicate IsSpace(c: char) {
    || ('\t' <= c <= '\r') || ('\U{1C}' <= c <= ' ')
    || c == '\U{85}' || c == '\U{A0}' || c == '\U{1680}'
    || ('\U{2000}' <= c <= '\U{200A}') || c == '\U{2028}' || c == '\U{2029}'
    || c == '\U{202F}' || c == '\U{205F}' || c == '\U{3000}'
  }

  /** Lower-casing of one character; only the ASCII letters change. */
  function LowerChar(c: char): char {
    if 'A' <= c <= 'Z' then (c as int + 32) as char else c
  }

  /** `s.lower()`. */
  function Lower(s: string): (r: string)
    ensures |r| == |s|
    ensures forall i :: 0 <= i < |s| ==> r[i] == LowerChar(s[i])
  {
    seq(|s|, i requires 0 <= i < |s| => LowerChar(s[i]))
  }

  /** `s.lstrip()`. Its contract is the lemma `StripLeftCuts`, kept apart so
      that callers unfolding `Strip` do not pay for it. */
  function StripLeft(s: string): string
    decreases |s|
  {
    if |s| > 0 && IsSpace(s[0]) then StripLeft(s[1..]) else s
  }

  /** `s.rstrip()`; its contract is the lemma `StripRightCuts`. */
  function StripRight(s: string): string
    decreases |s|
  {
    if |s| > 0 && IsSpace(s[|s| - 1]) then StripRight(s[..|s| - 1]) else s
  }

  /** `s.lstrip()` is a suffix of `s`, everything cut is white space and
      what remains does not start with white space. */
  lemma {:induction false} StripLeftCuts(s: string)
    ensures var r := StripLeft(s);
      && |r| <= |s| && r == s[|s| - |r|..]
      && (forall i :: 0 <= i < |s| - |r| ==> IsSpace(s[i]))
      && (|r| == 0 || !IsSpace(r[0]))
    decreases |s|
  {
    if |s| > 0 && IsSpace(s[0]) {
      StripLeftCuts(s[1..]);
    }
  }

  /** `s.rstrip()` is a prefix of `s`, everything cut is white space and
      what remains does not end with white space. */
  lemma {:induction false} StripRightCuts(s: string)
    ensures var r := StripRight(s);
      && |r| <= |s| && r == s[..|r|]
      && (forall i :: |r| <= i < |s| ==> IsSpace(s[i]))
      && (|r| == 0 || !IsSpace(r[|r| - 1]))
    decreases |s|
  {
    if |s| > 0 && IsSpace(s[|s| - 1]) {
      StripRightCuts(s[..|s| - 1]);
    }
  }

  /** `s[i..j]` is what remains of `s` once white space is cut from both ends. */
  predicate Margins(s: string, i: int, j: int) {
    && 0 <= i <= j <= |s|
    && (forall k :: 0 <= k < i ==> IsSpace(s[k]))
    && (forall k :: j <= k < |s| ==> IsSpace(s[k]))
  }

  /** `s.strip()`. */
  function Strip(s: string): string {
    StripRight(StripLeft(s))
  }

  /** `s.strip()` is the slice left after cutting white space from both
      ends, and neither of its ends is white space. */
  lemma StripTrims(s: string)
    ensures exists i, j :: Margins(s, i, j) && Strip(s) == s[i..j]
    ensures |Strip(s)| == 0 || (!IsSpace(Strip(s)[0]) && !IsSpace(Strip(s)[|Strip(s)| - 1]))
  {
    var l := StripLeft(s);
    StripLeftCuts(s);
    var i := |s| - |l|;
    var r := StripRight(l);
    StripRightCuts(l);
    var j := i + |r|;
    assert r == s[i..j];
    forall k | j <= k < |s| ensures IsSpace(s[k]) {
      assert s[k] == l[k - i];
    }
    assert Margins(s, i, j);
  }

  /** Stripping twice is stripping once. */
  lemma {:induction false} StripIdempotent(s: string)
    ensures Strip(Strip(s)) == Strip(s)
  {
    var t := Strip(s);
    StripTrims(s);
    if |t| > 0 {
      assert StripLeft(t) == t;
      assert StripRight(t) == t;
    }
  }

  /** Python's `needle in hay` on strings (the empty needle is in every string). */
  predicate Contains(hay: string, needle: string) {
    exists i :: 0 <= i <= |hay| && OccursAt(hay, needle, i)
  }

  /** `needle` occurs in `hay` starting at offset `i`. */
  predicate OccursAt(hay: string, needle: string, i: int) {
    0 <= i && i + |needle| <= |hay| && hay[i..i + |needle|] == needle
  }
}

=== FILE: wrappers.dfy ===
/** Optional values and results with an error payload, standing in for Python's
    `None` returns and raised exceptions. */
module Wrappers {

  datatype Option<+T> = None | Some(value: T) {

    /** The wrapped value, or `default` when there is none. */
    function GetOr(default: T): T {
      match this
      case Some(v) => v
      case None => default
    }
  }

  datatype Result<+R, +E> = Success(value: R) | Failure(error: E)
}
